=== FILE: README.md ===
# JK-Tools-hub image and PDF services, modelled in Dafny

This project models the decision logic of three service classes of the
JK-Tools-hub backend: `ImageResizer`, `ImageConverter` and `PDFConverter`.
They wrap Pillow, reportlab and PyPDF2. The model keeps what the classes
decide around those libraries:

- which formats they accept and how the format token is normalised;
- the quality clamp;
- which save options each format receives;
- when an image is flattened onto white, and with which mask;
- how a picture is fitted into a box or onto a PDF page;
- how text is paginated;
- how split pages are named;
- which inputs a merge or a batch keeps, and how a batch counts its files.

The libraries themselves are not modelled. An image is its size and colour
mode. An encode is the `EncodePlan` handed to the encoder: destination,
image after flattening and resizing, flattening, save options. The
filesystem and the libraries are a `Host` record of oracles:

- the sets of existing paths and regular files;
- what `Image.open` decodes from a path or from bytes;
- which exception class `Image.open` raises when it cannot decode a path;
- which exception class the resize and save raise, if any;
- which exception class creating a directory raises, if any;
- how many pages PyPDF2 reads from a PDF.

`Imaging.Valid` states what makes these oracles consistent: every regular
file exists, and so does every path that decodes. The operations do not
require it, because the source guards each of these cases itself. Lemmas
that chain operations, such as `ImageConverter.BatchFileFound`, assume it.

Python float arithmetic is modelled with exact reals. `int()` is truncation
toward zero, and a `ZeroDivisionError` path is `None`.

Modules, one per file:

- `Wrappers` (wrappers.dfy): `Option` and `Result`.
- `Seqs` (seqs.dfy): order-preserving `Filter` and its algebra. This is the shape of every "skip what does not qualify" loop in the services.
- `Text` (text.dfy): Python string operations the services rely on:
  - ASCII `upper`/`lower`;
  - `rfind`;
  - `str.split` on one character and `join`;
  - the `04d` format.
- `Paths` (paths.dfy): pathlib `name`/`suffix`, and `os.path` `basename`, `splitext` and `join`.
- `Imaging` (imaging.dfy): sizes, modes, formats, save options, encode plans, the host, and the `max(1, min(100, q))` clamp.
- `AspectFit` (aspect.dfy): `calculate_aspect_ratio_dimensions`.
- `ImageResizer` (resizer.dfy): the resizer class and its module-level convenience functions.
- `ImageConverter` (converter.dfy): the converter class, including `batch_convert`.
- `PdfConverter` (pdf.dfy): images to PDF, text to PDF, split and merge.
- `Contrasts` (contrasts.dfy): where the resizer and the converter decide the same thing differently.

The model follows the code as written. Behaviours worth noting:

- The resizer's `resize` and `convert_format` pass an explicit quality to
  the encoder unclamped. Only the constructor clamps.
- The resizer uses an alpha mask only for RGBA; the converter uses one for
  RGBA and LA.
- The resizer reads `JPG` as JPEG; the converter rejects it.
- `images_to_pdf` accepts neither `.webp` nor `.tif`.
- `merge_pdfs` succeeds when every input is missing, with nothing appended.
- `text_to_pdf` on a page lower than twice its 40-point margin starts with
  a blank page and puts each line on a page of its own.
- In `resize`, the flatten test compares the raw format token with `JPEG`
  and the source suffix with `.jpg`. The output format, by contrast, reads
  `JPG` as JPEG. An alpha image resized with `format="JPG"`, or from a
  `.jpeg` source with no format, therefore reaches the JPEG encoder
  unflattened. The model keeps this behaviour (`ExplicitJpgNotFlattened`,
  `JpegSuffixNotFlattened`).

## Model

| member | source | states |
|---|---|---|
| ImageResizer.NewResizer | backend/services/image_resizer.py:41 | the stored quality lies in [1, 100], equals the argument when that is already in range, and is 1 below the range and 100 above it |
| AspectFit.FitWithin | backend/services/image_resizer.py:83-102 | an original that already fits is returned unchanged; when it is larger in some dimension, one side of the result equals its target; the computation fails exactly when Python divides by zero |
| AspectFit.FitWithinHeightBound | backend/services/image_resizer.py:90-94 | for positive sizes, when the box is relatively wider (`tw*oh > ow*th`), the result is `(⌊th*ow/oh⌋, th)` |
| AspectFit.FitWithinWidthBound | backend/services/image_resizer.py:95-98 | otherwise the result is `(tw, ⌊tw*oh/ow⌋)` |
| AspectFit.FitWithinShrinksIntoBox | backend/services/image_resizer.py:87-102 | for positive sizes the result fits the box, never exceeds the original in either dimension, and keeps the aspect ratio up to the truncated side |
| AspectFit.FitWithinExample | backend/services/image_resizer.py:87-100 | 800x600 fitted into 400x400 becomes 400x300 |
| ImageResizer.ResizerSaveOptions | backend/services/image_resizer.py:158-161 | quality and optimize are set exactly for JPEG and WEBP; quality is the explicit non-zero argument, unclamped, else the stored quality |
| ImageResizer.ResizerFlattening | backend/services/image_resizer.py:139-140 | when flattening, the alpha band is the mask exactly for RGBA |
| ImageResizer.ResizePlan | backend/services/image_resizer.py:137-161 | the plan fails only for an undefined aspect fit; the size is the given size verbatim or the aspect fit; flattening happens iff the mode is RGBA/LA/P and the format is `JPEG`, or absent with a `.jpg` source; output format is the explicit non-empty token, else the upper-cased source suffix, with `JPG` read as `JPEG` |
| ImageResizer.Resize | backend/services/image_resizer.py:128-168 | a failure to create the output's parent directory gives False before the source is opened; otherwise it succeeds exactly when the source decodes, the plan is defined and the encoder raises nothing; any failure gives False |
| ImageResizer.CreateThumbnail | backend/services/image_resizer.py:189-196 | an undecodable source gives False; a saved thumbnail goes to the output path, was accepted by the encoder, and has the size `FitWithin` computes; lossy output gets quality 80 |
| ImageResizer.CreateThumbnailFits | backend/services/image_resizer.py:189-196 | a thumbnail of a positive-size image into a positive box fits the box and is no larger than the image |
| ImageResizer.ConvertFormatPlan | backend/services/image_resizer.py:226-240 | the token is upper-cased with `JPG` read as `JPEG`; JPEG targets of RGBA/LA/P images are flattened, masked only for RGBA; the size is unchanged; quality and optimize only for JPEG/WEBP |
| ImageResizer.ConvertFormat | backend/services/image_resizer.py:222-247 | a failure to create the output's parent directory gives False before the source is opened; succeeds exactly when the directory step, the open and the save of the converted image all succeed, and then saves that image; every failure is False |
| ImageResizer.ExplicitJpgNotFlattened | backend/services/image_resizer.py:138-155 | an RGBA image resized with format `JPG` is encoded as JPEG without flattening |
| ImageResizer.JpegSuffixNotFlattened | backend/services/image_resizer.py:138-155 | an RGBA image from a `.jpeg` source with no format is encoded as JPEG without flattening |
| ImageResizer.JpegSuffixReadings | backend/services/image_resizer.py:138-155 | `.jpeg` is not `.jpg` once lower-cased, yet upper-cased without its dot it is `JPEG` |
| ImageResizer.IsSupportedFormat | backend/services/image_resizer.py:250-262 | a supported path has a suffix of four or five characters: a dot and a three- or four-letter format name |
| ImageResizer.IsSupportedFormatOfName | backend/services/image_resizer.py:260-262 | for a plain name `stem.ext`, the file is supported iff `ext` upper-cased names one of the six formats |
| ImageResizer.JpgSuffixUnsupported | backend/services/image_resizer.py:261-262 | a `.jpg` file is reported unsupported, although JPEG is a supported format |
| ImageResizer.ResizeImage | backend/services/image_resizer.py:284-285 | an undecodable source gives False; the output keeps the aspect ratio as `FitWithin` computes and the source's format read from its suffix; the lossy quality is the clamped argument |
| ImageResizer.CreateThumbnailWithDefaults | backend/services/image_resizer.py:304-305 | an undecodable source gives False; the size is as `FitWithin` computes and the format is read from the suffix; the lossy quality is 80 |
| ImageResizer.DefaultThumbnailFits | backend/services/image_resizer.py:288-305 | with the default 150x150 box, the thumbnail of a positive-size image is at most 150x150 |
| ImageResizer.ConvertImageFormat | backend/services/image_resizer.py:326-327 | a failure to create the output's parent directory or an undecodable source gives False; the output format is the upper-cased token with `JPG` read as JPEG; the lossy quality is the argument itself when non-zero, unclamped |
| Imaging.ClampQuality | backend/services/image_converter.py:115 | the result lies in [1, 100], equals an in-range argument, and is 1 below and 100 above the range |
| Imaging.FormatNamed | backend/services/image_converter.py:39 | a name is accepted exactly when it is one of the six format names, and then yields that format |
| ImageConverter.ParseFormat | backend/services/image_converter.py:78-83 | a token is accepted iff upper-cased it is in `SUPPORTED_FORMATS`; the accepted format is named by the upper-cased token |
| ImageConverter.ParseFormatName | backend/services/image_converter.py:78-79 | every format is accepted from its name in any letter case |
| ImageConverter.GetSupportedFormats | backend/services/image_converter.py:325 | six distinct names, exactly those accepted |
| ImageConverter.ExtensionsCoverFormats | backend/services/image_converter.py:40-47 | every supported format has an extension |
| ImageConverter.Extension | backend/services/image_converter.py:40-47 | every extension is a dot followed by at least three dot- and slash-free characters |
| ImageConverter.ExtensionIsTableEntry | backend/services/image_converter.py:40-47 | the extension of each format is the table's entry for the format's name |
| ImageConverter.ExtensionReadsBack | backend/services/image_converter.py:39-47 | each extension without its dot is accepted as its own format, except `.jpg`, which is rejected |
| ImageConverter.ConverterSaveOptions | backend/services/image_converter.py:112-121 | JPEG and WEBP get the clamped quality and optimize; PNG gets optimize alone; GIF, BMP and TIFF get the format only |
| ImageConverter.ConverterFlattening | backend/services/image_converter.py:94-97 | flattening happens iff the target is JPEG and the mode is RGBA, LA or P; the mask is used for RGBA and LA |
| ImageConverter.ConverterPlan | backend/services/image_converter.py:94-121 | the image is flattened as above, then resized only when a size is given; its mode becomes RGB exactly when flattened |
| ImageConverter.ConvertImage | backend/services/image_converter.py:76-83 | an unsupported format raises before anything else is looked at; a supported one proceeds as `ConvertValidated` |
| ImageConverter.ConvertValidated | backend/services/image_converter.py:86-136 | a missing input raises; then opening the image, preparing the output directory and encoding run in that order, and the first exception ends the call: a ValueError or FileNotFoundError is re-raised, any other class gives False; success exactly when none raises |
| ImageConverter.Handled | backend/services/image_converter.py:128-136 | an exception past format validation gives False exactly when it is neither a ValueError nor a FileNotFoundError, and is re-raised otherwise |
| ImageConverter.OutputDirFault | backend/services/image_converter.py:106-108 | the output's directory part is created only when it is non-empty and missing, and only then can its creation raise |
| ImageConverter.ParseFormatUpper | backend/services/image_converter.py:267-301 | re-validating the already upper-cased token gives the same format |
| ImageConverter.ConvertImageBytes | backend/services/image_converter.py:161-205 | the same plan as `convert_image` into a buffer; every failure, an unsupported format included, is None |
| ImageConverter.BatchOutputName | backend/services/image_converter.py:294-298 | each output lands directly in the output directory, named the input's stem plus the format's extension |
| ImageConverter.BatchOutputPath | backend/services/image_converter.py:294-298 | every output path ends with the format's extension |
| ImageConverter.BatchOutputDirReady | backend/services/image_converter.py:276 | once the batch has created an output directory without a trailing slash, each file's output lies in that directory, so the per-file directory step raises nothing |
| ImageConverter.BatchOutputStem | backend/services/image_converter.py:294-298 | splitting the extension off an output name gives back the input's stem |
| ImageConverter.ConvertsInBatchIsConvertImage | backend/services/image_converter.py:300-303 | a file counts as a success exactly when `convert_image`, called with the upper-cased token and the derived output path, returns True |
| ImageConverter.BatchFileFound | backend/services/image_converter.py:288-303 | on a host where regular files exist, a file the batch converts never raises for a missing input |
| Seqs.CountSelected | backend/services/image_converter.py:288-308 | one pass counts each selected element exactly once: the first count is the number of selected elements that pass, the second the number that do not, and together they are the number selected |
| Seqs.CountStep | backend/services/image_converter.py:288-308 | an element adds one to the count exactly when it is selected and passes |
| ImageConverter.BatchConvert | backend/services/image_converter.py:266-315 | a bad format raises, then a missing input directory, then a failure to create the output directory, before any counting; otherwise non-regular paths are skipped, `successful` is the number of regular files that convert, `failed` the number that do not, and together they are the number of regular files matched |
| PdfConverter.PlaceImage | backend/services/pdf_converter.py:124-138 | the placement is centred on the page; it is undefined exactly where Python divides by zero |
| PdfConverter.PlaceImageFits | backend/services/pdf_converter.py:124-138 | for a real image and room inside the margins, the drawn image keeps the aspect ratio, fits the page minus margins, fills it in one direction, and lies at least a margin from each edge |
| PdfConverter.PlaceImageOnLetter | backend/services/pdf_converter.py:124-138 | on letter with margin 10, an 800x600 image is drawn 592x444 at (10, 174) |
| PdfConverter.LayOutImages | backend/services/pdf_converter.py:118-147 | one page per image, in order, placed as computed; it fails exactly when some image cannot be decoded or placed, and the error names the first such image |
| PdfConverter.LayOutImagesFails | backend/services/pdf_converter.py:118-147 | the layout fails exactly when some image cannot be decoded or placed; the image the error names cannot be, and every image before it can |
| PdfConverter.ImagesToPdf | backend/services/pdf_converter.py:93-112 | an empty list raises; the kept images are the existing paths with a supported suffix, in order; none kept raises; otherwise the kept images are laid out one page each, success exactly when every kept image can be read and placed, and a failure names the first that cannot |
| PdfConverter.IsPdfImage | backend/services/pdf_converter.py:100-107 | a kept path exists and has a suffix of four or five characters |
| PdfConverter.IsPdfImageOfName | backend/services/pdf_converter.py:104-105 | an existing `stem.ext` is kept iff `.ext` lower-cased is a supported suffix |
| PdfConverter.UpperCaseJpgKept | backend/services/pdf_converter.py:104 | an existing `.JPG` file is kept |
| PdfConverter.WebpSkipped | backend/services/pdf_converter.py:50 | an existing `.webp` file is skipped |
| PdfConverter.TifSkipped | backend/services/pdf_converter.py:50 | an existing `.tif` file is skipped |
| PdfConverter.TextToPdf | backend/services/pdf_converter.py:184-205 | it succeeds exactly for non-empty text, and empty text raises; every newline-separated line is drawn once, in order, at x = 40, so rejoining them gives the text; each line follows the previous one by `font_size + 4` or starts a new page when that falls below 40; no line is drawn below 40 on a page at least 80 high |
| Text.JoinSplit | backend/services/pdf_converter.py:196 | joining the pieces of a split gives back the string |
| Text.SplitJoin | backend/services/pdf_converter.py:196 | splitting a join of separator-free pieces gives back the pieces |
| Text.ZeroPad4 | backend/services/pdf_converter.py:311 | the result is all digits, at least four of them, exactly four below 10000, reads back as the number, and has a leading zero only when padded to width four |
| PdfConverter.AllPages | backend/services/pdf_converter.py:295-296 | the pages 1..N in order |
| PdfConverter.SplitFileName | backend/services/pdf_converter.py:311 | the name of a split page holds no slash |
| PdfConverter.SplitFileNameInjective | backend/services/pdf_converter.py:309-312 | two pages with the same file name are the same page |
| PdfConverter.SplitOutputPath | backend/services/pdf_converter.py:309-312 | every output path ends with the page's file name |
| PdfConverter.SplitOutputPathNamed | backend/services/pdf_converter.py:309-312 | each page lands directly in the output directory under its own name |
| PdfConverter.SplitOutputPathsDistinct | backend/services/pdf_converter.py:309-312 | distinct pages get distinct output paths |
| PdfConverter.SplitPdf | backend/services/pdf_converter.py:286-320 | a missing input raises, then a failure to create the output directory, then an unreadable input; the pages, all by default, are filtered to 1..N, order and repeats kept; an empty result raises; succeeds exactly when the input exists, the directory is created, the input is readable and some page is kept, with one output path per kept page, in order |
| PdfConverter.SplitAllPages | backend/services/pdf_converter.py:295-301 | with no pages named, a document of N pages yields N outputs, and raises when N is 0 |
| Seqs.FirstWhere | backend/services/pdf_converter.py:242-251 | finds the first bad element, with every earlier one good, or reports that none is bad; it is where the merge and the image layout stop |
| PdfConverter.MergePdfs | backend/services/pdf_converter.py:236-256 | an empty list raises; the appended inputs are the existing paths, in order; success exactly when each existing input is readable; every failure on a non-empty list is a read failure naming the first existing input PyPDF2 cannot read |
| Paths.JoinPathEndsWith | backend/services/image_converter.py:295-298 | a joined path ends with the name joined onto it, whatever the directory |
| Paths.JoinPathBasename | backend/services/image_converter.py:295-298 | joining a slash-free name onto a directory gives a path whose base name is that name |
| Paths.BasenameShape | backend/services/image_converter.py:294 | the base name holds no slash, is a tail of the path, and starts right after a slash unless it is the whole path |
| Paths.SplitextRootShape | backend/services/image_converter.py:294 | the root is a prefix of the path, and what it drops is a dot followed by neither dots nor slashes |
| Paths.SplitextDropsExtension | backend/services/image_converter.py:294 | splitting an appended extension off again gives back the root |
| Paths.PathSuffixOfPlainName | backend/services/image_resizer.py:261 | the suffix of a plain `stem.ext` is `.ext` |
| Paths.PathName | backend/services/pdf_converter.py:104 | the final component `pathlib` reports holds no slash and is never `.` |
| Paths.Suffix | backend/services/image_resizer.py:261 | the suffix is empty, or a tail of the name of at least two characters that starts with its only dot and is shorter than the name |
| Paths.Basename | backend/services/image_converter.py:294 | the base name is no longer than the path |
| Paths.SplitextRoot | backend/services/image_converter.py:294 | the root is no longer than the path |
| Paths.JoinPath | backend/services/image_converter.py:295-298 | an absolute name replaces the directory; otherwise the name is appended to the directory, with a slash between them unless the directory is empty or already ends with one |
| Paths.PathParent | backend/services/image_resizer.py:133 | the parent is never empty, and the parent of an absolute path is absolute |
| Paths.PathParentOfRelativeName | backend/services/image_resizer.py:133 | a path without a slash has the current directory as its parent |
| Paths.TrimTrailing | backend/services/image_converter.py:106 | the result is a prefix of the string that does not end with the stripped character, and everything dropped is that character |
| Paths.Dirname | backend/services/image_converter.py:106 | the directory part is a prefix of the path, and is empty when the path has no slash |
| Paths.DirnameOfJoin | backend/services/image_converter.py:106 | the directory part of a slash-free name joined onto a directory without a trailing slash is that directory |
| AspectFit.Trunc | backend/services/image_resizer.py:94 | truncation toward zero: the result lies within one of the argument, on the side of zero |
| Contrasts.JpgAliasOnlyInResizer | backend/services/image_resizer.py:226-228 | `JPG` is JPEG to the resizer and an unsupported format to the converter |
| Contrasts.MasksAgreeExceptLA | backend/services/image_resizer.py:140 | both classes flatten the same modes for JPEG, and agree on the mask for every mode except LA |
| Contrasts.ExplicitQualityClampedOnlyInConverter | backend/services/image_resizer.py:239 | an explicit non-zero lossy quality reaches the encoder as given from the resizer and clamped from the converter; they agree iff it is in [1, 100] |
| Contrasts.PngOptimizedOnlyInConverter | backend/services/image_converter.py:117-118 | PNG is optimized by the converter and not by the resizer |

## Left out

- Pixel work: compositing, resampling, encoding and decoding. These are Pillow calls; only the parameters handed to them are modelled.
- PDF bytes: canvas drawing and PyPDF2 page copying. Only placements, drawn lines, output names and merge inputs are modelled.
- AspectFit.FitWithin: computes with exact reals rather than IEEE doubles, so a truncated side can differ from Python's by one where float rounding crosses an integer.
- PdfConverter.PlaceImage: likewise computes with exact reals.
- Text.Upper and Text.Lower: change ASCII letters only. Python's `str.upper`/`str.lower` also change other Unicode letters.
- Paths.Suffix: follows the `pathlib` rule of Python 3.8 to 3.13; later versions treat a trailing dot differently.
- Glob matching in `batch_convert` is a parameter: the matched paths, in glob order.
- ImageConverter.ConvertValidated: the encode oracle covers both the resize and the save, which come before and after the directory step, so when a resize and the directory creation would both raise, the model reports the directory's exception instead of the resize's.
- ImageConverter.BatchConvert: the host is fixed for the whole batch. Every file is judged against the file system as it was before the batch, although Python's existence checks and opens inside the loop see the output directory the batch created and the files earlier iterations wrote. So an output directory spelled with a trailing slash may still be reported as faulting in the per-file directory step, and an earlier output that overwrites a later input is not seen.
- Paths.PathParent: treats a path starting with exactly two slashes like one starting with one; `pathlib` keeps such a `//` root.
- The temp directory, `cleanup`, `get_image_dimensions`, `get_image_info` and `get_pdf_info` are left out; they only report metadata or manage scratch space.
- PdfConverter.TextToPdf: does not model an unknown font name, which `setFont` rejects.
- PdfConverter.ImagesToPdf: does not model an unwritable output path. Only read and placement failures of the images are modelled.
- PdfConverter.SplitPdf: does not model an unwritable output path. The remaining split behaviour is modelled.
- PdfConverter.MergePdfs: does not model an unwritable output path. The remaining merge behaviour is modelled.
- The HTTP routes, the application wiring, logging and printing are outside the services.
- `PDFConverter.__init__` only creates the temp directory, and is left out.
- `SUPPORTED_DOCUMENT_FORMATS` is never consulted, and is left out.

=== FILE: aspect.dfy ===
/** The resizer's fit-into-a-box computation. The source works in floating
    point; this model uses exact rationals, so a result can differ from the
    source's by one where float rounding crosses an integer. */
module AspectFit {
  import opened Wrappers
  import opened Imaging

  /** Python's `int()` on a float: truncation toward zero, so the result
      lies within one of `x` on the side of zero. */
  function Trunc(x: real): (r: int)
    ensures x >= 0.0 ==> 0 <= r && r as real <= x < r as real + 1.0
    ensures x < 0.0 ==> r <= 0 && r as real - 1.0 < x <= r as real
  {
    if x >= 0.0 then x.Floor else -((-x).Floor)
  }

  /** The original is larger than the box in at least one dimension. */
  predicate ExceedsBox(original: Size, target: Size) {
    original.width > target.width || original.height > target.height
  }

  /** `calculate_aspect_ratio_dimensions`: an original that already fits is
      returned unchanged; otherwise the side the box constrains first is set
      to the box and the other is scaled and truncated. None stands for the
      ZeroDivisionError a zero height (or a zero width on the width-bound
      path) raises. */
  function FitWithin(original: Size, target: Size): (r: Option<Size>)
    ensures r.None? <==>
      || original.height == 0
      || (ExceedsBox(original, target)
          && (target.height == 0 || (original.width == 0 && target.width * target.height <= 0)))
    ensures r.Some? && !ExceedsBox(original, target) ==> r.value == original
    ensures r.Some? && ExceedsBox(original, target) ==>
      r.value.width == target.width || r.value.height == target.height
  {
    if original.height == 0 then None
    else
      var aspect := original.width as real / original.height as real;
      ZeroAspect(original.width, original.height);
      if ExceedsBox(original, target) then
        if target.height == 0 then None
        else
          QuotientSign(target.width, target.height);
          if target.width as real / target.height as real > aspect then
            Some(ScaleToHeight(original, target.height))
          else if aspect == 0.0 then None
          else Some(ScaleToWidth(original, target.width))
      else
        Some(original)
  }

  /** The height-bound branch: height `h`, width `int(h * aspect_ratio)`. */
  function ScaleToHeight(original: Size, h: int): Size
    requires original.height != 0
  {
    Size(Trunc(h as real * (original.width as real / original.height as real)), h)
  }

  /** The width-bound branch: width `w`, height `int(w / aspect_ratio)`. */
  function ScaleToWidth(original: Size, w: int): Size
    requires original.height != 0 && original.width != 0
  {
    ZeroAspect(original.width, original.height);
    Size(w, Trunc(w as real / (original.width as real / original.height as real)))
  }

  lemma ZeroAspect(w: int, h: int)
    requires h != 0
    ensures (w as real / h as real == 0.0) <==> w == 0
  {
    if w as real / h as real == 0.0 {
      assert w as real == (w as real / h as real) * h as real;
    }
  }

  lemma QuotientSign(a: int, b: int)
    requires b != 0
    ensures (a as real / b as real > 0.0) <==> a * b > 0
  {
    var q := a as real / b as real;
    assert a as real == q * b as real;
    if b > 0 {
      assert a * b > 0 <==> a > 0;
    } else {
      assert a * b > 0 <==> a < 0;
    }
  }

  /** For positive sides the float comparison of the two aspect ratios is the
      integer cross-multiplication. */
  lemma HeightBindsIff(ow: int, oh: int, tw: int, th: int)
    requires oh > 0 && th > 0
    ensures (tw as real / th as real > ow as real / oh as real) <==> tw * oh > ow * th
  {
    var a := tw as real / th as real;
    var b := ow as real / oh as real;
    var k := th as real * oh as real;
    assert k > 0.0;
    assert a * k == (tw * oh) as real;
    assert b * k == (ow * th) as real;
    assert a > b <==> a * k > b * k;
  }

  /** Truncating an exact quotient of naturals is integer division. */
  lemma TruncQuotient(n: int, d: int)
    requires n >= 0 && d > 0
    ensures Trunc(n as real / d as real) == n / d
  {
    var q := n / d;
    var m := n % d;
    assert n == q * d + m;
    assert n as real / d as real == q as real + m as real / d as real;
    assert 0.0 <= m as real / d as real < 1.0;
  }

  lemma MulLeft(k: int, a: int, b: int)
    requires k > 0 && a <= b
    ensures k * a <= k * b && a * k <= b * k
  {
  }

  /** A multiple of `d` strictly between `-d` and `d` is zero. */
  lemma SmallMultiple(e: int, d: int)
    requires d > 0 && -d < e * d < d
    ensures e == 0
  {
    if e > 0 {
      MulLeft(d, 1, e);
    } else if e < 0 {
      MulLeft(d, e, -1);
    }
  }

  /** Quotient and remainder are unique. */
  lemma DivUnique(n: int, d: int, q: int, m: int)
    requires d > 0 && 0 <= m < d && n == q * d + m
    ensures n / d == q && n % d == m
  {
    var e := q - n / d;
    assert e * d == q * d - (n / d) * d;
    assert e * d == n % d - m;
    SmallMultiple(e, d);
  }

  lemma DivBounds(a: int, b: int, d: int)
    requires 0 <= a <= b && d > 0
    ensures a / d <= b / d
  {
    var qa, qb := a / d, b / d;
    assert a == qa * d + a % d;
    assert b == qb * d + b % d;
    if qa > qb {
      MulLeft(d, qb + 1, qa);
    }
  }

  lemma DivExact(k: int, d: int)
    requires d > 0
    ensures (k * d) / d == k && (d * k) / d == k
  {
    DivUnique(k * d, d, k, 0);
  }

  lemma RealMulDiv(a: int, b: int, c: int)
    requires c != 0
    ensures a as real * (b as real / c as real) == (a * b) as real / c as real
  {
  }

  lemma RealDivDiv(a: int, b: int, c: int)
    requires b != 0 && c != 0
    ensures a as real / (b as real / c as real) == (a * c) as real / b as real
  {
  }

  lemma ScaleToHeightExact(original: Size, h: int)
    requires original.width >= 0 && original.height > 0 && h >= 0
    ensures ScaleToHeight(original, h) == Size((h * original.width) / original.height, h)
  {
    RealMulDiv(h, original.width, original.height);
    TruncQuotient(h * original.width, original.height);
  }

  lemma ScaleToWidthExact(original: Size, w: int)
    requires original.width > 0 && original.height > 0 && w >= 0
    ensures ScaleToWidth(original, w) == Size(w, (w * original.height) / original.width)
  {
    RealDivDiv(w, original.width, original.height);
    TruncQuotient(w * original.height, original.width);
  }

  /** When the box is relatively wider than the original, the height binds:
      the result is `(⌊th*ow/oh⌋, th)`. */
  lemma FitWithinHeightBound(original: Size, target: Size)
    requires original.width > 0 && original.height > 0
    requires target.width > 0 && target.height > 0
    requires ExceedsBox(original, target)
    requires target.width * original.height > original.width * target.height
    ensures FitWithin(original, target)
      == Some(Size((target.height * original.width) / original.height, target.height))
  {
    var ow, oh, tw, th := original.width, original.height, target.width, target.height;
    var aspect := ow as real / oh as real;
    HeightBindsIff(ow, oh, tw, th);
    assert tw as real / th as real > aspect;
    assert FitWithin(original, target) == Some(ScaleToHeight(original, th));
    ScaleToHeightExact(original, th);
  }

  /** Otherwise the width binds: the result is `(tw, ⌊tw*oh/ow⌋)`. */
  lemma FitWithinWidthBound(original: Size, target: Size)
    requires original.width > 0 && original.height > 0
    requires target.width > 0 && target.height > 0
    requires ExceedsBox(original, target)
    requires target.width * original.height <= original.width * target.height
    ensures FitWithin(original, target)
      == Some(Size(target.width, (target.width * original.height) / original.width))
  {
    var ow, oh, tw, th := original.width, original.height, target.width, target.height;
    var aspect := ow as real / oh as real;
    HeightBindsIff(ow, oh, tw, th);
    ZeroAspect(ow, oh);
    assert !(tw as real / th as real > aspect);
    assert aspect != 0.0;
    assert FitWithin(original, target) == Some(ScaleToWidth(original, tw));
    ScaleToWidthExact(original, tw);
  }

  /** If the box is relatively wider than the original, the original must
      be the taller one. */
  lemma WiderBoxMeansTaller(ow: int, oh: int, tw: int, th: int)
    requires ow > 0 && oh > 0 && tw > 0 && th > 0
    requires ow > tw || oh > th
    requires tw * oh > ow * th
    ensures th < oh
  {
    if oh <= th {
      MulLeft(ow, oh, th);
      MulLeft(oh, tw + 1, ow);
    }
  }

  /** `⌊n/d⌋` lies between 0 and `k` when `0 <= n <= k*d`, and the remainder is below `d`. */
  lemma QuotientBelow(n: int, d: int, k: int)
    requires d > 0 && 0 <= n <= k * d
    ensures 0 <= n / d <= k
    ensures 0 <= n - (n / d) * d < d
  {
    DivBounds(n, k * d, d);
    DivExact(k, d);
    assert n == (n / d) * d + n % d;
  }

  /** Integer core of the height-bound case: the truncated width stays
      within both the box and the original. */
  lemma HeightBoundInside(ow: int, oh: int, tw: int, th: int)
    requires ow > 0 && oh > 0 && tw > 0 && th > 0
    requires ow > tw || oh > th
    requires tw * oh > ow * th
    ensures th < oh
    ensures var w := (th * ow) / oh;
      0 <= w <= tw && w <= ow && 0 <= th * ow - w * oh < oh
  {
    WiderBoxMeansTaller(ow, oh, tw, th);
    var n := th * ow;
    assert n <= ow * oh by { MulLeft(ow, th, oh); }
    QuotientBelow(n, oh, ow);
    assert n <= tw * oh;
    QuotientBelow(n, oh, tw);
  }

  /** Otherwise the original must be the wider one. */
  lemma NarrowerBoxMeansWider(ow: int, oh: int, tw: int, th: int)
    requires ow > 0 && oh > 0 && tw > 0 && th > 0
    requires ow > tw || oh > th
    requires tw * oh <= ow * th
    ensures tw < ow
  {
    if ow <= tw {
      var a := ow * oh;
      assert a <= tw * oh by { MulLeft(oh, ow, tw); }
      assert ow * th < a by { MulLeft(ow, th + 1, oh); }
    }
  }

  /** Integer core of the width-bound case. */
  lemma WidthBoundInside(ow: int, oh: int, tw: int, th: int)
    requires ow > 0 && oh > 0 && tw > 0 && th > 0
    requires ow > tw || oh > th
    requires tw * oh <= ow * th
    ensures tw < ow
    ensures var h := (tw * oh) / ow;
      0 <= h <= th && h <= oh && 0 <= tw * oh - h * ow < ow
  {
    NarrowerBoxMeansWider(ow, oh, tw, th);
    var n := tw * oh;
    assert n <= oh * ow by { MulLeft(oh, tw, ow); }
    QuotientBelow(n, ow, oh);
    assert n <= th * ow;
    QuotientBelow(n, ow, th);
  }

  /** With positive sides the result always fits the box and never exceeds
      the original: the resizer only ever shrinks. The result keeps the
      original aspect ratio up to the truncated side: the cross products
      differ by less than the original side that was divided by. */
  lemma FitWithinShrinksIntoBox(original: Size, target: Size)
    requires original.width > 0 && original.height > 0
    requires target.width > 0 && target.height > 0
    ensures FitWithin(original, target).Some?
    ensures var r := FitWithin(original, target).value;
      && 0 <= r.width <= target.width && 0 <= r.height <= target.height
      && r.width <= original.width && r.height <= original.height
      && -original.width < r.height * original.width - r.width * original.height < original.height
  {
    var ow, oh, tw, th := original.width, original.height, target.width, target.height;
    var r := FitWithin(original, target).value;
    if !ExceedsBox(original, target) {
      assert r == original;
      assert r.height * ow - r.width * oh == 0;
    } else if tw * oh > ow * th {
      FitWithinHeightBound(original, target);
      HeightBoundInside(ow, oh, tw, th);
      var w := (th * ow) / oh;
      assert r == Size(w, th);
      assert r.height * ow - r.width * oh == th * ow - w * oh;
    } else {
      FitWithinWidthBound(original, target);
      WidthBoundInside(ow, oh, tw, th);
      var h := (tw * oh) / ow;
      assert r == Size(tw, h);
      assert r.height * ow - r.width * oh == -(tw * oh - h * ow);
    }
  }

  /** The worked example: an 800x600 image fitted into a 400x400 box is
      width-bound and becomes 400x300. */
  lemma FitWithinExample()
    ensures FitWithin(Size(800, 600), Size(400, 400)) == Some(Size(400, 300))
  {
    FitWithinWidthBound(Size(800, 600), Size(400, 400));
  }
}

=== FILE: contrasts.dfy ===
/** Where `ImageResizer` and `ImageConverter` make the same decision
    differently: the `JPG` alias, the alpha mask of LA images, clamping an
    explicit quality, and optimizing PNG output. */
module Contrasts {
  import opened Wrappers
  import opened Text
  import opened Imaging
  import ImageResizer
  import ImageConverter

  /** `JPG`, in any letter case, is JPEG to the resizer's `convert_format`
      and an unsupported format to the converter. */
  lemma JpgAliasOnlyInResizer(token: string)
    requires Upper(token) == "JPG"
    ensures ImageResizer.AliasJpg(Upper(token)) == "JPEG"
    ensures ImageConverter.ParseFormat(token).None?
  {
  }

  /** Flattening an image for JPEG output, both classes paste onto white
      for the same modes; they agree on the mask for every mode except LA,
      whose alpha band only the converter uses. */
  lemma MasksAgreeExceptLA(m: Mode)
    ensures ImageResizer.ResizerFlattening(m, NeedsFlatteningForJpeg(m)).OntoWhite?
            <==> ImageConverter.ConverterFlattening(JPEG, m).OntoWhite?
    ensures (ImageResizer.ResizerFlattening(m, NeedsFlatteningForJpeg(m))
             == ImageConverter.ConverterFlattening(JPEG, m)) <==> m != LA
  {
  }

  /** An explicit non-zero quality for a lossy format reaches the encoder
      unchanged from the resizer and clamped from the converter: the two
      agree exactly when it is already within [1, 100]. */
  lemma ExplicitQualityClampedOnlyInConverter(f: Format, q: int, stored: int, optimize: bool)
    requires f == JPEG || f == WEBP
    requires q != 0
    ensures ImageResizer.ResizerSaveOptions(f.Name(), Some(q), stored).quality == Some(q)
    ensures ImageConverter.ConverterSaveOptions(f, q, optimize).quality == Some(ClampQuality(q))
    ensures (ImageResizer.ResizerSaveOptions(f.Name(), Some(q), stored).quality
             == ImageConverter.ConverterSaveOptions(f, q, optimize).quality) <==> 1 <= q <= 100
  {
    assert IsLossyName(f.Name());
  }

  /** PNG output is optimized by the converter and not by the resizer. */
  lemma PngOptimizedOnlyInConverter(quality: Option<int>, stored: int, q: int, optimize: bool)
    ensures ImageResizer.ResizerSaveOptions(PNG.Name(), quality, stored).optimize.None?
    ensures ImageConverter.ConverterSaveOptions(PNG, q, optimize).optimize == Some(optimize)
  {
    assert !IsLossyName(PNG.Name());
  }
}

=== FILE: converter.dfy ===
/** `ImageConverter`: single-image conversion from a path or from bytes, and
    batch conversion of a directory. The model keeps every decision the
    class makes around the imaging library: format validation, the error
    mapping, the flatten decision, the save options, output naming and the
    success/failure tally. */
module ImageConverter {
  import opened Wrappers
  import opened Text
  import opened Seqs
  import opened Paths
  import opened Imaging

  /** `SUPPORTED_FORMATS`, in its declared order. */
  const SupportedFormats: seq<string> := ["JPEG", "PNG", "WEBP", "BMP", "GIF", "TIFF"]

  /** `FORMAT_EXTENSIONS`. */
  const FormatExtensions: map<string, string> :=
    map["JPEG" := ".jpg", "PNG" := ".png", "WEBP" := ".webp",
        "BMP" := ".bmp", "GIF" := ".gif", "TIFF" := ".tiff"]

  /** The format a token names once upper-cased; `JPG` is not an alias here. */
  function ParseFormat(token: string): (r: Option<Format>)
    ensures r.Some? <==> Upper(token) in SupportedFormats
    ensures r.Some? ==> r.value.Name() == Upper(token)
  {
    FormatNamed(Upper(token))
  }

  /** Every format reads back from its own name, in any letter case. */
  lemma ParseFormatName(f: Format, token: string)
    requires Upper(token) == f.Name()
    ensures ParseFormat(token) == Some(f)
  {
    match f
    case JPEG =>
    case PNG =>
    case WEBP =>
    case BMP =>
    case GIF =>
    case TIFF =>
  }

  /** `get_supported_formats`: a copy of `SUPPORTED_FORMATS`; six distinct
      names, exactly those `ParseFormat` accepts when already upper-case. */
  function GetSupportedFormats(): (r: seq<string>)
    ensures |r| == 6
    ensures forall i, j :: 0 <= i < j < |r| ==> r[i] != r[j]
    ensures forall s :: s in r <==> FormatNamed(s).Some?
  {
    SupportedFormats
  }

  /** Every supported format has an entry in `FORMAT_EXTENSIONS`. */
  lemma ExtensionsCoverFormats()
    ensures forall s :: s in SupportedFormats ==> s in FormatExtensions
    ensures forall f: Format :: f.Name() in FormatExtensions
  {
  }

  /** The extension `batch_convert` gives a format's output files. */
  function Extension(f: Format): (r: string)
    ensures 4 <= |r| && r[0] == '.' && '.' !in r[1..] && '/' !in r
  {
    match f
    case JPEG => ".jpg"
    case PNG => ".png"
    case WEBP => ".webp"
    case BMP => ".bmp"
    case GIF => ".gif"
    case TIFF => ".tiff"
  }

  /** `Extension` is the `FORMAT_EXTENSIONS` entry for the format's name. */
  lemma ExtensionIsTableEntry(f: Format)
    ensures f.Name() in FormatExtensions && Extension(f) == FormatExtensions[f.Name()]
  {
  }

  /** Every extension but `.jpg` reads back as its own format; `.jpg` does
      not, because the converter does not accept `JPG`. */
  lemma ExtensionReadsBack(f: Format)
    ensures f != JPEG ==> ParseFormat(Extension(f)[1..]) == Some(f)
    ensures f == JPEG ==> ParseFormat(Extension(f)[1..]).None?
  {
    assert Upper("jpg") == "JPG";
    assert Upper("png") == "PNG";
    assert Upper("webp") == "WEBP";
    assert Upper("bmp") == "BMP";
    assert Upper("gif") == "GIF";
    assert Upper("tiff") == "TIFF";
  }

  // -----------------------------------------------------------------------
  // Encode parameters

  /** The save options of both converter entry points: quality, clamped, and
      optimize for JPEG and WEBP; optimize alone for PNG; nothing else for
      GIF, BMP and TIFF. */
  function ConverterSaveOptions(f: Format, quality: int, optimize: bool): (r: SaveOptions)
    ensures r.format == f.Name()
    ensures r.quality.Some? <==> f == JPEG || f == WEBP
    ensures r.quality.Some? ==> r.quality.value == ClampQuality(quality) && 1 <= r.quality.value <= 100
    ensures r.optimize.Some? <==> f == JPEG || f == WEBP || f == PNG
    ensures r.optimize.Some? ==> r.optimize.value == optimize
  {
    match f
    case JPEG => SaveOptions(f.Name(), Some(ClampQuality(quality)), Some(optimize))
    case WEBP => SaveOptions(f.Name(), Some(ClampQuality(quality)), Some(optimize))
    case PNG => SaveOptions(f.Name(), None, Some(optimize))
    case _ => SaveOptions(f.Name(), None, None)
  }

  /** Flatten onto white exactly for JPEG targets of RGBA, LA and P images;
      RGBA and LA images lend their last band as the mask. */
  function ConverterFlattening(f: Format, mode: Mode): (r: Flattening)
    ensures r.OntoWhite? <==> f == JPEG && NeedsFlatteningForJpeg(mode)
    ensures r.OntoWhite? ==> (r.alphaMask <==> mode == RGBA || mode == LA)
  {
    if f == JPEG && NeedsFlatteningForJpeg(mode) then OntoWhite(mode == RGBA || mode == LA)
    else KeepMode
  }

  /** What both entry points hand to the encoder for a decoded image: the
      image flattened when needed, then resized when a size was given. */
  function ConverterPlan(
    destination: Destination, img: Image, f: Format, quality: int,
    resize: Option<Size>, optimize: bool): (r: EncodePlan)
    ensures r.destination == destination
    ensures r.flattening == ConverterFlattening(f, img.mode)
    ensures r.image.size == resize.GetOr(img.size)
    ensures r.image.mode == (if r.flattening.OntoWhite? then RGB else img.mode)
    ensures r.options == ConverterSaveOptions(f, quality, optimize)
  {
    var flattening := ConverterFlattening(f, img.mode);
    var flat := Flatten(img, flattening);
    EncodePlan(destination, Image(resize.GetOr(img.size), flat.mode), flattening,
               ConverterSaveOptions(f, quality, optimize))
  }

  // -----------------------------------------------------------------------
  // convert_image and convert_image_bytes

  /** The exceptions `convert_image` and `batch_convert` let escape. */
  datatype ConvertError =
    | UnsupportedFormat(format: string)
    | InputNotFound(path: Path)
    | LibraryRaised(fault: Fault)

  /** The three ways `convert_image` ends: True with the saved plan, False,
      or an exception. */
  datatype Conversion = Saved(plan: EncodePlan) | ReturnedFalse | Raised(error: ConvertError)

  /** `convert_image`: the format is validated, upper-cased, before
      anything else, and an unsupported one raises; a supported one proceeds
      as `ConvertValidated`. */
  function ConvertImage(
    host: Host, input: Path, output: Path, token: string, quality: int,
    resize: Option<Size>, optimize: bool): (r: Conversion)
    ensures ParseFormat(token).None? <==> r == Raised(UnsupportedFormat(Upper(token)))
    ensures ParseFormat(token).Some? ==>
      r == ConvertValidated(host, input, output, ParseFormat(token).value, quality, resize, optimize)
  {
    match ParseFormat(token)
    case None => Raised(UnsupportedFormat(Upper(token)))
    case Some(f) => ConvertValidated(host, input, output, f, quality, resize, optimize)
  }

  /** How the handlers of `convert_image` end a call once an exception is
      raised past format validation: ValueError and FileNotFoundError are
      re-raised, any other class becomes False. */
  function Handled(fault: Fault): (r: Conversion)
    ensures r.ReturnedFalse? <==> fault == OtherFault
    ensures !r.ReturnedFalse? ==> r == Raised(LibraryRaised(fault))
  {
    if fault == OtherFault then ReturnedFalse else Raised(LibraryRaised(fault))
  }

  /** The exception, if any, `convert_image` meets preparing the output
      directory: the directory part of the output path is created only when
      it is non-empty and missing. */
  function OutputDirFault(host: Host, output: Path): (r: Option<Fault>)
    ensures Dirname(output) == "" || Dirname(output) in host.existing ==> r.None?
    ensures Dirname(output) != "" && Dirname(output) !in host.existing ==> r == host.makeDirs(Dirname(output))
  {
    var dir := Dirname(output);
    if dir != "" && dir !in host.existing then host.makeDirs(dir) else None
  }

  /** `convert_image` past format validation. A missing input raises. Then
      the image is opened, the output directory prepared and the plan
      encoded; the first of these to raise ends the call, re-raised when it
      is a ValueError or FileNotFoundError (the handlers re-raise those
      classes whatever their origin) and False otherwise. */
  function ConvertValidated(
    host: Host, input: Path, output: Path, f: Format, quality: int,
    resize: Option<Size>, optimize: bool): (r: Conversion)
    ensures !(r.Raised? && r.error.UnsupportedFormat?)
    ensures r == Raised(InputNotFound(input)) <==> input !in host.existing
    ensures input in host.existing && host.decode(input).None? ==>
      if host.decodeFault(input) == OtherFault then r == ReturnedFalse
      else r == Raised(LibraryRaised(host.decodeFault(input)))
    ensures input in host.existing && host.decode(input).Some? && OutputDirFault(host, output).Some? ==>
      if OutputDirFault(host, output) == Some(OtherFault) then r == ReturnedFalse
      else r == Raised(LibraryRaised(OutputDirFault(host, output).value))
    ensures r.Saved? <==>
      && input in host.existing && host.decode(input).Some? && OutputDirFault(host, output).None?
      && host.encode(ConverterPlan(ToFile(output), host.decode(input).value, f, quality, resize, optimize)).None?
    ensures r.Saved? ==>
      r.plan == ConverterPlan(ToFile(output), host.decode(input).value, f, quality, resize, optimize)
    ensures input in host.existing && host.decode(input).Some? && OutputDirFault(host, output).None? ==>
      var fault := host.encode(ConverterPlan(ToFile(output), host.decode(input).value, f, quality, resize, optimize));
      && (r.ReturnedFalse? <==> fault == Some(OtherFault))
      && (fault.Some? && fault.value != OtherFault ==> r == Raised(LibraryRaised(fault.value)))
    ensures r.Raised? && r.error.LibraryRaised? ==> input in host.existing && r.error.fault != OtherFault
  {
    if input !in host.existing then Raised(InputNotFound(input))
    else
      match host.decode(input)
      case None => Handled(host.decodeFault(input))
      case Some(img) =>
        var plan := ConverterPlan(ToFile(output), img, f, quality, resize, optimize);
        match OutputDirFault(host, output)
        case Some(fault) => Handled(fault)
        case None =>
          match host.encode(plan)
          case None => Saved(plan)
          case Some(fault) => Handled(fault)
  }

  /** Validating an already upper-cased token gives the same format. */
  lemma ParseFormatUpper(token: string)
    ensures ParseFormat(Upper(token)) == ParseFormat(token)
  {
    UpperIdempotent(token);
  }

  /** `convert_image_bytes`: the same decisions as `convert_image` on an
      in-memory image, but every failure, an unsupported format included,
      yields None. The input-format argument is ignored. */
  function ConvertImageBytes(
    host: Host, input: seq<bv8>, inputFormat: Option<string>, token: string, quality: int,
    resize: Option<Size>, optimize: bool): (r: Option<EncodePlan>)
    ensures r.Some? <==>
      && ParseFormat(token).Some? && host.decodeBytes(input).Some?
      && host.encode(ConverterPlan(ToBuffer, host.decodeBytes(input).value, ParseFormat(token).value,
                                   quality, resize, optimize)).None?
    ensures r.Some? ==>
      r.value == ConverterPlan(ToBuffer, host.decodeBytes(input).value, ParseFormat(token).value,
                               quality, resize, optimize)
  {
    match ParseFormat(token)
    case None => None
    case Some(f) =>
      match host.decodeBytes(input)
      case None => None
      case Some(img) =>
        var plan := ConverterPlan(ToBuffer, img, f, quality, resize, optimize);
        if host.encode(plan).Some? then None else Some(plan)
  }

  // -----------------------------------------------------------------------
  // batch_convert

  /** The output path `batch_convert` derives for an input file: the input's
      base name without its extension, plus the format's extension, inside
      the output directory. */
  function BatchOutputPath(outputDir: Path, input: Path, f: Format): (r: Path)
    ensures |Extension(f)| <= |r| && r[|r| - |Extension(f)|..] == Extension(f)
  {
    JoinPathEndsWith(outputDir, SplitextRoot(Basename(input)), Extension(f));
    JoinPath(outputDir, SplitextRoot(Basename(input)) + Extension(f))
  }

  /** The output lands directly in the output directory, and its name is the
      input's stem followed by the format's extension. */
  lemma BatchOutputName(outputDir: Path, input: Path, f: Format)
    ensures Basename(BatchOutputPath(outputDir, input, f)) == SplitextRoot(Basename(input)) + Extension(f)
    ensures |outputDir| <= |BatchOutputPath(outputDir, input, f)|
    ensures BatchOutputPath(outputDir, input, f)[..|outputDir|] == outputDir
  {
    BasenameShape(input);
    SplitextRootShape(Basename(input));
    JoinPathBasename(outputDir, SplitextRoot(Basename(input)) + Extension(f));
  }

  /** Once `batch_convert` has created an output directory without a
      trailing slash, each file's `convert_image` call prepares that same
      directory, so its own directory step raises nothing. */
  lemma BatchOutputDirReady(host: Host, outputDir: Path, input: Path, f: Format)
    requires outputDir != "" && outputDir[|outputDir| - 1] != '/'
    requires host.makeDirs(outputDir).None?
    ensures Dirname(BatchOutputPath(outputDir, input, f)) == outputDir
    ensures OutputDirFault(host, BatchOutputPath(outputDir, input, f)).None?
  {
    BasenameShape(input);
    SplitextRootShape(Basename(input));
    DirnameOfJoin(outputDir, SplitextRoot(Basename(input)) + Extension(f));
  }

  /** Every path `batch_convert` converts is a regular file, so on a
      consistent host it exists and its `convert_image` call never raises
      for a missing input. */
  lemma BatchFileFound(host: Host, outputDir: Path, f: Format, quality: int, file: Path)
    requires Valid(host)
    requires IsRegularFile(host)(file)
    ensures ConvertValidated(host, file, BatchOutputPath(outputDir, file, f), f, quality, None, true)
         != Raised(InputNotFound(file))
  {
  }

  /** When the input's base name has a character other than a dot, splitting
      the extension off the output name gives back the input's stem: the
      stem survives the round trip through the output name. */
  lemma BatchOutputStem(input: Path, f: Format, j: int)
    requires 0 <= j < |Basename(input)| && Basename(input)[j] != '.'
    ensures SplitextRoot(SplitextRoot(Basename(input)) + Extension(f)) == SplitextRoot(Basename(input))
  {
    BasenameShape(input);
    SplitextRootKeepsNonDot(Basename(input), j);
    SplitextRootShape(Basename(input));
    SplitextDropsExtension(SplitextRoot(Basename(input)), Extension(f));
  }

  /** The counts `batch_convert` returns. */
  datatype BatchTally = BatchTally(successful: nat, failed: nat)

  /** Whether `batch_convert` counts one regular file as a success: its
      `convert_image` call returned True. */
  predicate ConvertsInBatch(host: Host, outputDir: Path, f: Format, quality: int, file: Path) {
    ConvertValidated(host, file, BatchOutputPath(outputDir, file, f), f, quality, None, true).Saved?
  }

  /** The paths `batch_convert` processes: the regular files. */
  function IsRegularFile(host: Host): Path -> bool {
    p => p in host.regularFiles
  }

  /** The files counted as successes. */
  function Converts(host: Host, outputDir: Path, f: Format, quality: int): Path -> bool {
    p => ConvertsInBatch(host, outputDir, f, quality, p)
  }

  /** The files counted as failures. */
  function Fails(host: Host, outputDir: Path, f: Format, quality: int): Path -> bool {
    Not(Converts(host, outputDir, f, quality))
  }

  /** Counting a file as a success is `convert_image` returning True for it,
      called with the token upper-cased, as `batch_convert` calls it. */
  lemma ConvertsInBatchIsConvertImage(
    host: Host, outputDir: Path, token: string, f: Format, quality: int, file: Path)
    requires ParseFormat(token) == Some(f)
    ensures ConvertsInBatch(host, outputDir, f, quality, file)
        <==> ConvertImage(host, file, BatchOutputPath(outputDir, file, f), Upper(token), quality, None, true).Saved?
  {
    ParseFormatUpper(token);
  }

  /** `batch_convert`, given the paths the glob matched, in glob order. The
      format and the input directory are checked first and raise, and a
      failure to create the output directory raises too; then each
      regular file is converted and counted exactly once, as a success when
      `convert_image` returns True and as a failure when it returns False or
      raises. Paths that are not regular files are skipped. */
  method BatchConvert(
    host: Host, inputDir: Path, outputDir: Path, token: string, quality: int,
    matched: seq<Path>) returns (r: Result<BatchTally, ConvertError>)
    ensures ParseFormat(token).None? ==> r == Failure(UnsupportedFormat(Upper(token)))
    ensures ParseFormat(token).Some? && inputDir !in host.existing ==> r == Failure(InputNotFound(inputDir))
    ensures ParseFormat(token).Some? && inputDir in host.existing && host.makeDirs(outputDir).Some? ==>
      r == Failure(LibraryRaised(host.makeDirs(outputDir).value))
    ensures r.Success? <==>
      ParseFormat(token).Some? && inputDir in host.existing && host.makeDirs(outputDir).None?
    ensures r.Success? ==>
      var files := Filter(matched, IsRegularFile(host));
      var f := ParseFormat(token).value;
      && r.value.successful == |Filter(files, Converts(host, outputDir, f, quality))|
      && r.value.failed == |Filter(files, Fails(host, outputDir, f, quality))|
    ensures r.Success? ==> r.value.successful + r.value.failed == |Filter(matched, IsRegularFile(host))|
  {
    var parsed := ParseFormat(token);
    if parsed.None? {
      return Failure(UnsupportedFormat(Upper(token)));
    }
    if inputDir !in host.existing {
      return Failure(InputNotFound(inputDir));
    }
    var dirFault := host.makeDirs(outputDir);
    if dirFault.Some? {
      return Failure(LibraryRaised(dirFault.value));
    }
    var f := parsed.value;
    var successful, failed := CountSelected(matched, IsRegularFile(host), Converts(host, outputDir, f, quality));
    r := Success(BatchTally(successful, failed));
  }
}

=== FILE: imaging.dfy ===
/** The values the image services pass to and receive from the imaging
    library: an image is reduced to its size and colour mode, an encode to
    the options handed to the encoder, and the library and filesystem to a
    `Host` record of oracles. */
module Imaging {
  import opened Wrappers
  import opened Paths

  /** A (width, height) pair, as the source's `Tuple[int, int]`. */
  datatype Size = Size(width: int, height: int)

  /** Pillow colour modes; only RGBA, LA and P matter to the decisions. */
  datatype Mode = RGB | RGBA | LA | P | L | CMYK | OneBit | OtherMode

  /** The modes that carry transparency or a palette and so cannot be
      written as JPEG without flattening. */
  predicate NeedsFlatteningForJpeg(m: Mode) {
    m == RGBA || m == LA || m == P
  }

  datatype Image = Image(size: Size, mode: Mode)

  /** The six encoder formats both image services accept. */
  datatype Format = JPEG | PNG | WEBP | BMP | GIF | TIFF {
    function Name(): (r: string)
      ensures 3 <= |r| <= 4
    {
      match this
      case JPEG => "JPEG"
      case PNG => "PNG"
      case WEBP => "WEBP"
      case BMP => "BMP"
      case GIF => "GIF"
      case TIFF => "TIFF"
    }
  }

  /** The format whose name is exactly `name`, if any. */
  function FormatNamed(name: string): (r: Option<Format>)
    ensures r.Some? ==> r.value.Name() == name
    ensures r.None? ==> forall f: Format :: f.Name() != name
  {
    if name == "JPEG" then Some(JPEG)
    else if name == "PNG" then Some(PNG)
    else if name == "WEBP" then Some(WEBP)
    else if name == "BMP" then Some(BMP)
    else if name == "GIF" then Some(GIF)
    else if name == "TIFF" then Some(TIFF)
    else None
  }

  /** The lossy formats: the only ones that receive a quality setting. */
  predicate IsLossyName(name: string) {
    name == "JPEG" || name == "WEBP"
  }

  /** `max(1, min(100, q))`: the quality clamp applied by the resizer's
      constructor and by the converter's encoders. */
  function ClampQuality(q: int): (r: int)
    ensures 1 <= r <= 100
    ensures 1 <= q <= 100 ==> r == q
    ensures q < 1 ==> r == 1
    ensures q > 100 ==> r == 100
  {
    if q < 1 then 1 else if q > 100 then 100 else q
  }

  /** Whether an image is pasted onto an opaque white RGB canvas before
      encoding, and whether its last band serves as the paste mask. */
  datatype Flattening = KeepMode | OntoWhite(alphaMask: bool)

  /** The keyword arguments of `Image.save`: the format always, `quality`
      and `optimize` only when the service sets them. */
  datatype SaveOptions = SaveOptions(format: string, quality: Option<int>, optimize: Option<bool>)

  datatype Destination = ToFile(path: Path) | ToBuffer

  /** Everything a service hands to the encoder: where to write, the image
      as it stands after flattening and resizing, and the save options. */
  datatype EncodePlan = EncodePlan(
    destination: Destination,
    image: Image,
    flattening: Flattening,
    options: SaveOptions)

  /** The image a flattening step produces: RGB of the same size, or the
      input unchanged. */
  function Flatten(img: Image, flattening: Flattening): (r: Image)
    ensures r.size == img.size
    ensures flattening.OntoWhite? ==> r.mode == RGB
    ensures flattening.KeepMode? ==> r == img
  {
    if flattening.OntoWhite? then Image(img.size, RGB) else img
  }

  /** The Python exception class a library call raised. */
  datatype Fault = ValueFault | FileNotFoundFault | OtherFault

  /** The world outside the services. `existing` and `regularFiles` are the
      paths `os.path.exists` and `os.path.isfile` accept; `decode` and
      `decodeBytes` say what `Image.open` yields (None when it raises), and
      `decodeFault` which exception class it raises when `decode` yields
      None; `encode` says which exception, if any, the library's resize and
      save calls raise for a plan; `makeDirs` says which exception, if any,
      creating a directory with its parents (`os.makedirs` or
      `Path.mkdir`, both with `exist_ok=True`) raises for a path;
      `pdfPageCount` says how many pages `PdfReader` finds (None when it
      raises). */
  datatype Host = Host(
    existing: set<Path>,
    regularFiles: set<Path>,
    decode: Path -> Option<Image>,
    decodeFault: Path -> Fault,
    decodeBytes: seq<bv8> -> Option<Image>,
    encode: EncodePlan -> Option<Fault>,
    makeDirs: Path -> Option<Fault>,
    pdfPageCount: Path -> Option<nat>)

  /** A host whose oracles agree with each other: a regular file exists,
      and a path `Image.open` decodes exists. */
  ghost predicate Valid(host: Host) {
    && host.regularFiles <= host.existing
    && forall p :: host.decode(p).Some? ==> p in host.existing
  }
}

=== FILE: paths.dfy ===
/** POSIX path handling as the services use it: `pathlib` for `.name` and
    `.suffix`, `os.path` for `basename`, `splitext` and `join`. A path is
    a plain string; the filesystem itself is modelled elsewhere as sets of
    paths. */
module Paths {
  import opened Text
  import opened Seqs

  type Path = string

  /** `PurePosixPath(p).name`: the last component once empty and `.`
      components have been dropped, or "" when none is left. */
  function PathName(p: Path): (r: string)
    ensures '/' !in r
    ensures r != "."
  {
    var components := Split(p, '/');
    var parts := Filter(components, IsComponent);
    if parts == [] then ""
    else
      var last := parts[|parts| - 1];
      FilterMembers(components, IsComponent);
      assert last in components;
      last
  }

  /** The pieces between slashes that `pathlib` keeps as components: empty
      pieces and `.` are dropped. */
  predicate IsComponent(c: string) {
    c != "" && c != "."
  }

  /** `str(PurePosixPath(p).parent)`: the path without its last component;
      `/` or `.` (for an absolute or a relative path) when at most one
      component is left. */
  function PathParent(p: Path): (r: Path)
    ensures r != ""
    ensures |p| > 0 && p[0] == '/' ==> r[0] == '/'
  {
    var parts := Filter(Split(p, '/'), IsComponent);
    var root := if |p| > 0 && p[0] == '/' then "/" else "";
    if |parts| <= 1 then (if root == "" then "." else root)
    else
      FilterSatisfies(Split(p, '/'), IsComponent);
      assert IsComponent(parts[0]);
      root + Join(parts[..|parts| - 1], '/')
  }

  /** A path without a slash has at most one component, so its parent is
      the current directory. */
  lemma PathParentOfRelativeName(p: Path)
    requires '/' !in p
    ensures PathParent(p) == "."
  {
    SplitWithoutSeparator(p, '/');
    assert Split(p, '/') == [p];
    assert Filter([p], IsComponent) == Filter([], IsComponent) + (if IsComponent(p) then [p] else []) by {
      FilterSnoc([], p, IsComponent);
    }
  }

  /** `PurePosixPath.suffix` applied to a final component: from the last dot
      to the end, but only when that dot is neither the first nor the last
      character. */
  function Suffix(name: string): (r: string)
    ensures r == "" || (2 <= |r| < |name| && r == name[|name| - |r|..])
    ensures r != "" ==> r[0] == '.' && '.' !in r[1..]
  {
    var i := LastIndexOf(name, '.');
    LastIndexOfIsLast(name, '.');
    if 0 < i < |name| - 1 then name[i..] else ""
  }

  /** `Path(p).suffix`. */
  function PathSuffix(p: Path): string {
    Suffix(PathName(p))
  }

  /** `os.path.basename(p)`: everything after the last slash. */
  function Basename(p: Path): (r: string)
    ensures |r| <= |p|
  {
    var i := LastIndexOf(p, '/');
    p[i + 1..]
  }

  /** The base name is the slash-free tail of the path, and it starts right
      after a slash unless it is the whole path. */
  lemma BasenameShape(p: Path)
    ensures '/' !in Basename(p)
    ensures Basename(p) == p[|p| - |Basename(p)|..]
    ensures |Basename(p)| < |p| ==> p[|p| - |Basename(p)| - 1] == '/'
  {
    LastIndexOfIsLast(p, '/');
  }

  /** `s.rstrip(c)`: `s` without its trailing run of `c`. */
  function TrimTrailing(s: string, c: char): (r: string)
    ensures |r| <= |s| && r == s[..|r|]
    ensures r == "" || r[|r| - 1] != c
    ensures forall k :: |r| <= k < |s| ==> s[k] == c
    decreases |s|
  {
    if s != [] && s[|s| - 1] == c then
      TrimTrailing(s[..|s| - 1], c)
    else s
  }

  /** `os.path.dirname(p)`: everything before the last slash, with the
      trailing slashes dropped unless there is nothing but slashes. */
  function Dirname(p: Path): (r: Path)
    ensures |r| <= |p| && r == p[..|r|]
    ensures r != "" ==> '/' in p
  {
    var head := p[..LastIndexOf(p, '/') + 1];
    var trimmed := TrimTrailing(head, '/');
    if trimmed != "" then trimmed else head
  }

  /** The root half of `os.path.splitext(p)`: `p` up to its last dot, unless
      that dot lies before the last slash or only dots precede it in the
      final component, in which case `p` itself. */
  function SplitextRoot(p: Path): (r: Path)
    ensures |r| <= |p|
  {
    var sep := LastIndexOf(p, '/');
    var dot := LastIndexOf(p, '.');
    if dot > sep && exists j :: sep < j < dot && p[j] != '.' then
      p[..dot]
    else
      p
  }

  /** The root is a prefix of the path; when it is shorter, what it drops is
      a dot followed by neither dots nor slashes: exactly the extension. */
  lemma SplitextRootShape(p: Path)
    ensures SplitextRoot(p) == p[..|SplitextRoot(p)|]
    ensures '/' !in p ==> '/' !in SplitextRoot(p)
    ensures var r := SplitextRoot(p);
      r != p ==> p[|r|] == '.' && '.' !in p[|r| + 1..] && '/' !in p[|r| + 1..]
  {
    LastIndexOfIsLast(p, '/');
    LastIndexOfIsLast(p, '.');
    var r := SplitextRoot(p);
    assert forall k :: 0 <= k < |r| ==> r[k] == p[k];
  }

  /** `os.path.join(dir, name)`. */
  function JoinPath(dir: Path, name: string): (r: Path)
    ensures |name| > 0 && name[0] == '/' ==> r == name
    ensures !(|name| > 0 && name[0] == '/') && (dir == "" || dir[|dir| - 1] == '/') ==> r == dir + name
    ensures !(|name| > 0 && name[0] == '/') && dir != "" && dir[|dir| - 1] != '/' ==> r == dir + "/" + name
  {
    if |name| > 0 && name[0] == '/' then name
    else if dir == "" || dir[|dir| - 1] == '/' then dir + name
    else dir + "/" + name
  }

  /** A joined path ends with whatever the joined name ends with. */
  lemma JoinPathEndsWith(dir: Path, stem: string, ext: string)
    ensures |ext| <= |JoinPath(dir, stem + ext)|
    ensures var r := JoinPath(dir, stem + ext); r[|r| - |ext|..] == ext
  {
    var name := stem + ext;
    var r := JoinPath(dir, name);
    var pre := r[..|r| - |name|];
    assert r == pre + name;
    assert r[|r| - |ext|..] == name[|stem|..];
  }

  /** The last `c` of `x + name` is the last character of `x` when `x` ends
      with `c` and `name` holds none. */
  lemma {:induction false} LastIndexPastPrefix(x: string, name: string, c: char)
    requires x == "" || x[|x| - 1] == c
    requires c !in name
    ensures LastIndexOf(x + name, c) == |x| - 1
    decreases |name|
  {
    if name == [] {
      assert x + name == x;
    } else {
      var s := x + name;
      assert s[..|s| - 1] == x + name[..|name| - 1];
      LastIndexPastPrefix(x, name[..|name| - 1], c);
    }
  }

  /** Joining a slash-free name onto a directory yields a path whose base
      name is that name: the file lands directly inside the directory. */
  lemma JoinPathBasename(dir: Path, name: string)
    requires '/' !in name
    ensures Basename(JoinPath(dir, name)) == name
    ensures JoinPath(dir, name)[..|dir|] == dir
  {
    var r := JoinPath(dir, name);
    var x := if dir == "" || dir[|dir| - 1] == '/' then dir else dir + "/";
    assert r == x + name;
    assert r[|x|..] == name;
    LastIndexPastPrefix(x, name, '/');
  }

  /** `os.path.dirname` undoes `os.path.join` of a slash-free name onto a
      directory that does not end with a slash. */
  lemma DirnameOfJoin(dir: Path, name: string)
    requires dir != "" && dir[|dir| - 1] != '/'
    requires '/' !in name
    ensures Dirname(JoinPath(dir, name)) == dir
  {
    var x := dir + "/";
    var p := JoinPath(dir, name);
    assert p == x + name;
    LastIndexPastPrefix(x, name, '/');
    assert p[..|x|] == x;
    assert x[..|x| - 1] == dir;
  }

  /** `os.path.splitext` undoes appending an extension: adding `ext` to a
      slash-free root that is not all dots and splitting again gives the
      root back. */
  lemma SplitextDropsExtension(root: string, ext: string)
    requires '/' !in root
    requires exists k :: 0 <= k < |root| && root[k] != '.'
    requires |ext| >= 2 && ext[0] == '.' && '.' !in ext[1..] && '/' !in ext
    ensures SplitextRoot(root + ext) == root
  {
    var tail := ext[1..];
    var p := root + ext;
    assert p == root + "." + tail;
    assert '/' !in p;
    LastIndexPastPrefix(root + ".", tail, '.');
    var k :| 0 <= k < |root| && root[k] != '.';
    assert p[k] == root[k];
    assert p[..|root|] == root;
  }

  /** The root `os.path.splitext` leaves of a slash-free name still holds a
      character other than a dot when the name does. */
  lemma SplitextRootKeepsNonDot(name: string, j: int)
    requires '/' !in name
    requires 0 <= j < |name| && name[j] != '.'
    ensures exists k :: 0 <= k < |SplitextRoot(name)| && SplitextRoot(name)[k] != '.'
  {
    var root := SplitextRoot(name);
    if root != name {
      var sep := LastIndexOf(name, '/');
      var dot := LastIndexOf(name, '.');
      assert sep == -1;
      assert |root| == dot;
      var w :| sep < w < dot && name[w] != '.';
      assert root[w] == name[w];
    } else {
      assert root[j] == name[j];
    }
  }

  /** A plain file name is its own final component. */
  lemma PathNameOfPlainName(name: string)
    requires name != "" && name != "." && '/' !in name
    ensures PathName(name) == name
  {
    SplitWithoutSeparator(name, '/');
  }

  /** The suffix of a plain file name `stem.ext` (one dot, no slash) is
      `.ext`. */
  lemma PathSuffixOfPlainName(name: string, stem: string, ext: string)
    requires stem != "" && '.' !in stem && '/' !in stem
    requires ext != "" && '.' !in ext && '/' !in ext
    requires name == stem + "." + ext
    ensures PathSuffix(name) == "." + ext
  {
    PathNameOfPlainName(name);
    assert name == (stem + ".") + ext;
    LastIndexPastPrefix(stem + ".", ext, '.');
  }
}

=== FILE: pdf.dfy ===
/** `PDFConverter`: the page planning around reportlab and PyPDF2. An image
    PDF is the list of placements handed to the canvas, a text PDF the list
    of drawn lines, a split the list of per-page output paths and a merge the
    list of inputs appended. */
module PdfConverter {
  import opened Wrappers
  import opened Text
  import opened Seqs
  import opened Paths
  import opened Imaging

  /** A page size in points. */
  datatype PageSize = PageSize(width: real, height: real)

  /** reportlab's `letter`, the default page size. */
  const Letter: PageSize := PageSize(612.0, 792.0)

  /** The default margin of `images_to_pdf`, in points. */
  const DefaultImageMargin: int := 10

  /** The fixed margin of `text_to_pdf`: the left edge of every line and the
      lowest baseline allowed before a page break. */
  const TextMargin: real := 40.0

  /** `SUPPORTED_IMAGE_FORMATS`: the lower-cased suffixes `images_to_pdf`
      accepts. Neither `.webp` nor `.tif` is among them. */
  const ImageSuffixes: set<string> := {".jpg", ".jpeg", ".png", ".gif", ".bmp", ".tiff"}

  /** Why a `PDFConverter` operation raised `PDFConverterError`. */
  datatype PdfError =
    | NoImagePaths
    | NoValidImages
    | ImageFailed(path: Path)
    | NoTextContent
    | NoPdfPaths
    | PdfFailed(path: Path)
    | InputPdfNotFound(path: Path)
    | OutputDirFailed(path: Path)
    | NoValidPages

  // -----------------------------------------------------------------------
  // images_to_pdf

  /** Where one image is drawn: the lower-left corner and the drawn size. */
  datatype Placement = Placement(x: real, y: real, width: real, height: real)

  /** One page of an image PDF. */
  datatype ImagePage = ImagePage(source: Path, placement: Placement)

  /** The placement `images_to_pdf` computes for an image of `iw` by `ih`
      pixels: scale it to the page minus the margins on every side, the
      width binding when the area is relatively narrower than the image,
      then centre it. None where Python divides by zero (a zero image
      height, a zero available height, or a zero-width image in the
      width-binding branch); the caller turns that into an error. */
  function PlaceImage(page: PageSize, margin: int, iw: int, ih: int): (r: Option<Placement>)
    ensures r.None? <==>
      || ih == 0
      || page.height - 2.0 * margin as real == 0.0
      || (iw == 0 && (page.width - 2.0 * margin as real) / (page.height - 2.0 * margin as real) < 0.0)
    ensures r.Some? ==>
      && r.value.x == (page.width - r.value.width) / 2.0
      && r.value.y == (page.height - r.value.height) / 2.0
  {
    var availW := page.width - 2.0 * margin as real;
    var availH := page.height - 2.0 * margin as real;
    if ih == 0 || availH == 0.0 then None
    else
      var aspect := iw as real / ih as real;
      if availW / availH < aspect then
        if aspect == 0.0 then None
        else
          var h := availW / aspect;
          Some(Placement((page.width - availW) / 2.0, (page.height - h) / 2.0, availW, h))
      else
        var w := availH * aspect;
        Some(Placement((page.width - w) / 2.0, (page.height - availH) / 2.0, w, availH))
  }

  /** Comparing quotients of positive reals is comparing cross products. */
  lemma QuotientLess(a: real, b: real, c: real, d: real)
    requires b > 0.0 && d > 0.0
    ensures a / b < c / d <==> a * d < c * b
  {
    assert a / b == (a * d) / (b * d);
    assert c / d == (c * b) / (b * d);
  }

  /** Dividing by `iw / ih` is multiplying by `ih / iw`. */
  lemma DivideByRatio(a: real, iw: real, ih: real)
    requires iw > 0.0 && ih > 0.0
    ensures a / (iw / ih) == a * ih / iw
  {
  }

  /** In the width-binding case the scaled height stays within the area. */
  lemma WidthBindingFits(aw: real, ah: real, iw: real, ih: real)
    requires aw > 0.0 && ah > 0.0 && iw > 0.0 && ih > 0.0
    requires aw / ah < iw / ih
    ensures aw / (iw / ih) < ah
    ensures (aw / (iw / ih)) * iw == aw * ih
  {
    QuotientLess(aw, ah, iw, ih);
    DivideByRatio(aw, iw, ih);
    assert aw * ih < iw * ah;
    assert aw * ih / iw < ah;
  }

  /** In the height-binding case the scaled width stays within the area. */
  lemma HeightBindingFits(aw: real, ah: real, iw: real, ih: real)
    requires aw > 0.0 && ah > 0.0 && iw > 0.0 && ih > 0.0
    requires !(aw / ah < iw / ih)
    ensures ah * (iw / ih) <= aw
    ensures ah * (iw / ih) * ih == ah * iw
  {
    QuotientLess(aw, ah, iw, ih);
    assert iw * ah <= aw * ih;
    assert ah * (iw / ih) == ah * iw / ih;
  }

  /** For a real image on a page with room inside the margins, the drawn
      image keeps the image's aspect ratio, fits the available area, fills it
      in at least one direction, and sits centred, hence at least a margin
      away from every edge. */
  lemma PlaceImageFits(page: PageSize, margin: int, iw: int, ih: int)
    requires iw > 0 && ih > 0
    requires page.width - 2.0 * margin as real > 0.0 && page.height - 2.0 * margin as real > 0.0
    ensures PlaceImage(page, margin, iw, ih).Some?
    ensures var p := PlaceImage(page, margin, iw, ih).value;
      var availW := page.width - 2.0 * margin as real;
      var availH := page.height - 2.0 * margin as real;
      && p.width * ih as real == p.height * iw as real
      && 0.0 < p.width <= availW && 0.0 < p.height <= availH
      && (p.width == availW || p.height == availH)
      && p.x >= margin as real && p.y >= margin as real
  {
    var availW := page.width - 2.0 * margin as real;
    var availH := page.height - 2.0 * margin as real;
    var w, h := iw as real, ih as real;
    if availW / availH < w / h {
      WidthBindingFits(availW, availH, w, h);
    } else {
      HeightBindingFits(availW, availH, w, h);
    }
  }

  /** The placement on the default page with the default margin: an 800 by
      600 image fills the 592 points of width and is centred vertically. */
  lemma PlaceImageOnLetter()
    ensures PlaceImage(Letter, DefaultImageMargin, 800, 600) == Some(Placement(10.0, 174.0, 592.0, 444.0))
  {
    assert 592.0 / 772.0 < 800.0 / 600.0;
    assert 592.0 / (800.0 / 600.0) == 444.0;
  }

  /** Whether `images_to_pdf` keeps a path: it exists and its lower-cased
      suffix is a supported image suffix. */
  predicate IsPdfImage(host: Host, p: Path)
    ensures IsPdfImage(host, p) ==> p in host.existing && 4 <= |PathSuffix(p)| <= 5
  {
    ImageSuffixLengths();
    p in host.existing && Lower(PathSuffix(p)) in ImageSuffixes
  }

  /** Every supported image suffix is a dot and three or four letters. */
  lemma ImageSuffixLengths()
    ensures forall x :: x in ImageSuffixes ==> 4 <= |x| <= 5
  {
  }

  /** The paths `images_to_pdf` keeps. */
  function KeptImage(host: Host): Path -> bool {
    p => IsPdfImage(host, p)
  }

  /** An image `images_to_pdf` cannot draw: the imaging library cannot
      open it, or its placement divides by zero. */
  predicate Unplaceable(host: Host, page: PageSize, margin: int, p: Path) {
    || host.decode(p).None?
    || PlaceImage(page, margin, host.decode(p).value.size.width, host.decode(p).value.size.height).None?
  }

  /** `Unplaceable` as a function value, for `FirstWhere`. */
  function CannotPlace(host: Host, page: PageSize, margin: int): Path -> bool {
    p => Unplaceable(host, page, margin, p)
  }

  /** Draw the kept images one page each, in order; the first image that
      cannot be read or placed aborts the whole document and is the one the
      error names. */
  function LayOutImages(host: Host, images: seq<Path>, page: PageSize, margin: int): (r: Result<seq<ImagePage>, PdfError>)
    ensures r.Success? ==> |r.value| == |images|
    ensures r.Success? ==> forall i :: 0 <= i < |images| ==>
      && r.value[i].source == images[i]
      && host.decode(images[i]).Some?
      && Some(r.value[i].placement) ==
           PlaceImage(page, margin, host.decode(images[i]).value.size.width, host.decode(images[i]).value.size.height)
    ensures r.Failure? <==> FirstWhere(images, CannotPlace(host, page, margin)).Some?
    ensures r.Failure? ==> r.error == ImageFailed(FirstWhere(images, CannotPlace(host, page, margin)).value)
    decreases |images|
  {
    if images == [] then Success([])
    else
      var first := images[0];
      match host.decode(first)
      case None => Failure(ImageFailed(first))
      case Some(img) =>
        match PlaceImage(page, margin, img.size.width, img.size.height)
        case None => Failure(ImageFailed(first))
        case Some(placement) =>
          match LayOutImages(host, images[1..], page, margin)
          case Failure(e) => Failure(e)
          case Success(rest) => Success([ImagePage(first, placement)] + rest)
  }

  /** Layout fails exactly when some image cannot be read or placed, and
      then every image before the one it names was drawn. */
  lemma LayOutImagesFails(host: Host, images: seq<Path>, page: PageSize, margin: int)
    ensures LayOutImages(host, images, page, margin).Failure? <==>
      exists i :: 0 <= i < |images| && Unplaceable(host, page, margin, images[i])
    ensures var r := LayOutImages(host, images, page, margin);
      r.Failure? ==> exists i :: (&& 0 <= i < |images| && r.error == ImageFailed(images[i])
                                  && Unplaceable(host, page, margin, images[i])
                                  && forall k :: 0 <= k < i ==> !Unplaceable(host, page, margin, images[k]))
  {
    var bad := CannotPlace(host, page, margin);
    assert forall i :: 0 <= i < |images| ==> (bad(images[i]) <==> Unplaceable(host, page, margin, images[i]));
  }

  /** `images_to_pdf`: an empty list raises; the kept images are the existing
      paths with a supported suffix, in input order; none kept raises; then
      one page per kept image. */
  function ImagesToPdf(host: Host, paths: seq<Path>, page: PageSize, margin: int): (r: Result<seq<ImagePage>, PdfError>)
    ensures paths == [] ==> r == Failure(NoImagePaths)
    ensures paths != [] && Filter(paths, KeptImage(host)) == [] ==> r == Failure(NoValidImages)
    ensures r.Success? ==>
      var kept := Filter(paths, KeptImage(host));
      && |r.value| == |kept| > 0
      && forall i :: 0 <= i < |kept| ==> r.value[i].source == kept[i]
    ensures r.Failure? && r.error.ImageFailed? ==> r.error.path in paths && IsPdfImage(host, r.error.path)
    ensures paths != [] && Filter(paths, KeptImage(host)) != [] ==>
      r == LayOutImages(host, Filter(paths, KeptImage(host)), page, margin)
    ensures paths != [] ==>
      (r.Success? <==> FirstWhere(Filter(paths, KeptImage(host)), CannotPlace(host, page, margin)).None?
                       && Filter(paths, KeptImage(host)) != [])
    ensures r.Failure? && r.error.ImageFailed? ==>
      Some(r.error.path) == FirstWhere(Filter(paths, KeptImage(host)), CannotPlace(host, page, margin))
  {
    if paths == [] then Failure(NoImagePaths)
    else
      var kept := Filter(paths, KeptImage(host));
      if kept == [] then Failure(NoValidImages)
      else
        var r := LayOutImages(host, kept, page, margin);
        FilterMembers(paths, KeptImage(host));
        r
  }

  /** For a plain file name `stem.ext` that exists, `images_to_pdf` keeps it
      exactly when `.ext`, lower-cased, is a supported suffix. */
  lemma IsPdfImageOfName(host: Host, name: string, stem: string, ext: string)
    requires stem != "" && '.' !in stem && '/' !in stem
    requires ext != "" && '.' !in ext && '/' !in ext
    requires name == stem + "." + ext
    requires name in host.existing
    ensures IsPdfImage(host, name) <==> "." + Lower(ext) in ImageSuffixes
  {
    PathSuffixOfPlainName(name, stem, ext);
    assert Lower("." + ext) == "." + Lower(ext);
  }

  /** Suffixes are compared case-insensitively: an existing `.JPG` file is
      kept. */
  lemma UpperCaseJpgKept(host: Host, stem: string)
    requires stem != "" && '.' !in stem && '/' !in stem
    requires stem + ".JPG" in host.existing
    ensures IsPdfImage(host, stem + ".JPG")
  {
    assert Lower("JPG") == "jpg";
    assert "." + "jpg" == ".jpg";
    IsPdfImageOfName(host, stem + ".JPG", stem, "JPG");
  }

  /** A WebP image, which the image services handle, is skipped here. */
  lemma WebpSkipped(host: Host, stem: string)
    requires stem != "" && '.' !in stem && '/' !in stem
    requires stem + ".webp" in host.existing
    ensures !IsPdfImage(host, stem + ".webp")
  {
    var ext := "webp";
    assert Lower(ext) == ext;
    assert "." + ext == ".webp";
    assert ".webp" !in ImageSuffixes;
    IsPdfImageOfName(host, stem + ".webp", stem, ext);
  }

  /** So is a `.tif` file: only the four-letter `.tiff` is listed. */
  lemma TifSkipped(host: Host, stem: string)
    requires stem != "" && '.' !in stem && '/' !in stem
    requires stem + ".tif" in host.existing
    ensures !IsPdfImage(host, stem + ".tif")
  {
    assert Lower("tif") == "tif";
    assert "." + "tif" == ".tif";
    assert ".tif" != ".jpg" && ".tif" != ".png" && ".tif" != ".gif" && ".tif" != ".bmp";
    IsPdfImageOfName(host, stem + ".tif", stem, "tif");
  }

  // -----------------------------------------------------------------------
  // text_to_pdf

  /** One `drawString` call: the page it lands on (counting from 0), the
      baseline position and the text. */
  datatype DrawnLine = DrawnLine(page: nat, x: real, y: real, text: string)

  /** The texts of a run of drawn lines, in drawing order. */
  function Texts(lines: seq<DrawnLine>): (r: seq<string>)
    ensures |r| == |lines|
    ensures forall i :: 0 <= i < |lines| ==> r[i] == lines[i].text
  {
    seq(|lines|, i requires 0 <= i < |lines| => lines[i].text)
  }

  /** A text PDF: the drawn lines and the number of pages the canvas holds. */
  datatype TextLayout = TextLayout(lines: seq<DrawnLine>, pageCount: nat)

  /** How a line follows the one before it: one line height lower on the same
      page, unless that position is below the margin, in which case at the
      top of the next page. */
  predicate LineFollows(prev: DrawnLine, next: DrawnLine, page: PageSize, lineHeight: int) {
    var y := prev.y - lineHeight as real;
    if y < TextMargin then next.page == prev.page + 1 && next.y == page.height - TextMargin
    else next.page == prev.page && next.y == y
  }

  /** `text_to_pdf`. Empty text raises. Otherwise every newline-separated
      line is drawn exactly once, in order, at the left margin, so the drawn
      texts rejoined with newlines are the input; the first line at the top,
      each next per `LineFollows` with a line height of the font size plus
      4. On a page at least twice the margin high no line is drawn below the
      margin. */
  method TextToPdf(page: PageSize, fontSize: int, text: string) returns (r: Result<TextLayout, PdfError>)
    ensures text == "" <==> r == Failure(NoTextContent)
    ensures r.Success? <==> text != ""
    ensures r.Success? ==>
      var parts := Split(text, '\n');
      var drawn := r.value.lines;
      && |drawn| == |parts|
      && (forall i :: 0 <= i < |drawn| ==> drawn[i].text == parts[i] && drawn[i].x == TextMargin)
      && drawn[0].y == page.height - TextMargin
      && drawn[0].page == (if page.height - TextMargin < TextMargin then 1 else 0)
      && (forall i :: 0 < i < |drawn| ==> LineFollows(drawn[i - 1], drawn[i], page, fontSize + 4))
      && r.value.pageCount == drawn[|drawn| - 1].page + 1
    ensures r.Success? && page.height >= 2.0 * TextMargin ==>
      forall i :: 0 <= i < |r.value.lines| ==> r.value.lines[i].y >= TextMargin
    ensures r.Success? ==> |Texts(r.value.lines)| >= 1 && Join(Texts(r.value.lines), '\n') == text
  {
    if text == "" {
      return Failure(NoTextContent);
    }
    var parts := Split(text, '\n');
    var lineHeight := fontSize + 4;
    var y := page.height - TextMargin;
    var pageIndex: nat := 0;
    var drawn: seq<DrawnLine> := [];
    var i := 0;
    while i < |parts|
      invariant 0 <= i <= |parts|
      invariant |drawn| == i
      invariant forall k :: 0 <= k < i ==> drawn[k].text == parts[k] && drawn[k].x == TextMargin
      invariant i == 0 ==> y == page.height - TextMargin && pageIndex == 0
      invariant i > 0 ==> y == drawn[i - 1].y - lineHeight as real && pageIndex == drawn[i - 1].page
      invariant i > 0 ==> drawn[0].y == page.height - TextMargin
      invariant i > 0 ==> drawn[0].page == (if page.height - TextMargin < TextMargin then 1 else 0)
      invariant forall k :: 0 < k < i ==> LineFollows(drawn[k - 1], drawn[k], page, lineHeight)
      invariant page.height >= 2.0 * TextMargin ==> forall k :: 0 <= k < i ==> drawn[k].y >= TextMargin
    {
      if y < TextMargin {
        pageIndex := pageIndex + 1;
        y := page.height - TextMargin;
      }
      drawn := drawn + [DrawnLine(pageIndex, TextMargin, y, parts[i])];
      y := y - lineHeight as real;
      i := i + 1;
    }
    assert Texts(drawn) == parts;
    JoinSplit(text, '\n');
    r := Success(TextLayout(drawn, pageIndex + 1));
  }

  // -----------------------------------------------------------------------
  // split_pdf

  /** The pages 1..n in order: what `split_pdf` extracts when no pages are
      named. */
  function AllPages(n: nat): (r: seq<int>)
    ensures |r| == n
    ensures forall i :: 0 <= i < n ==> r[i] == i + 1
  {
    seq(n, i requires 0 <= i < n => i + 1)
  }

  /** The page numbers that exist in a document of `n` pages. */
  function PageExists(n: nat): int -> bool {
    p => 1 <= p <= n
  }

  /** The file name of one extracted page: `page_`, the page number
      zero-padded to four digits, `.pdf`. */
  function SplitFileName(p: nat): (r: string)
    ensures '/' !in r
  {
    var digits := ZeroPad4(p);
    assert forall k :: 0 <= k < |digits| ==> digits[k] != '/';
    "page_" + digits + ".pdf"
  }

  /** The output path of one extracted page. */
  function SplitOutputPath(outputDir: Path, p: nat): (r: Path)
    ensures |SplitFileName(p)| <= |r| && r[|r| - |SplitFileName(p)|..] == SplitFileName(p)
  {
    JoinPath(outputDir, SplitFileName(p))
  }

  /** Distinct pages get distinct file names, so no extracted page
      overwrites another; the page number reads back from the name. */
  lemma SplitFileNameInjective(p: nat, q: nat)
    requires SplitFileName(p) == SplitFileName(q)
    ensures p == q
  {
    var a, b := ZeroPad4(p), ZeroPad4(q);
    assert ("page_" + a + ".pdf")[5..|a| + 5] == a;
    assert ("page_" + b + ".pdf")[5..|b| + 5] == b;
    assert |a| == |b|;
  }

  /** Each extracted page lands directly in the output directory under its
      own name. */
  lemma SplitOutputPathNamed(outputDir: Path, p: nat)
    ensures Basename(SplitOutputPath(outputDir, p)) == SplitFileName(p)
    ensures SplitOutputPath(outputDir, p)[..|outputDir|] == outputDir
  {
    JoinPathBasename(outputDir, SplitFileName(p));
  }

  /** Different pages map to different output paths. */
  lemma SplitOutputPathsDistinct(outputDir: Path, p: nat, q: nat)
    requires p != q
    ensures SplitOutputPath(outputDir, p) != SplitOutputPath(outputDir, q)
  {
    SplitOutputPathNamed(outputDir, p);
    SplitOutputPathNamed(outputDir, q);
    if SplitFileName(p) == SplitFileName(q) {
      SplitFileNameInjective(p, q);
    }
  }

  /** `split_pdf`. A missing input raises; so does a failure to create the
      output directory, then an input the PDF reader cannot open. No pages
      named means all pages; the named pages are then filtered to those in
      1..N, order and repeats kept; none left raises. Otherwise one output
      per kept page, in order. */
  function SplitPdf(host: Host, input: Path, outputDir: Path, pages: Option<seq<int>>): (r: Result<seq<Path>, PdfError>)
    ensures input !in host.existing ==> r == Failure(InputPdfNotFound(input))
    ensures input in host.existing && host.makeDirs(outputDir).Some? ==> r == Failure(OutputDirFailed(outputDir))
    ensures input in host.existing && host.makeDirs(outputDir).None? && host.pdfPageCount(input).None? ==>
      r == Failure(PdfFailed(input))
    ensures r.Success? ==>
      && input in host.existing && host.makeDirs(outputDir).None? && host.pdfPageCount(input).Some?
      && var n := host.pdfPageCount(input).value;
         var kept := Filter(pages.GetOr(AllPages(n)), PageExists(n));
         && |r.value| == |kept| > 0
         && forall i :: 0 <= i < |kept| ==> 1 <= kept[i] <= n && r.value[i] == SplitOutputPath(outputDir, kept[i])
    ensures r == Failure(NoValidPages) <==>
      && input in host.existing && host.makeDirs(outputDir).None? && host.pdfPageCount(input).Some?
      && Filter(pages.GetOr(AllPages(host.pdfPageCount(input).value)), PageExists(host.pdfPageCount(input).value)) == []
    ensures r.Success? <==>
      && input in host.existing && host.makeDirs(outputDir).None? && host.pdfPageCount(input).Some?
      && Filter(pages.GetOr(AllPages(host.pdfPageCount(input).value)), PageExists(host.pdfPageCount(input).value)) != []
  {
    if input !in host.existing then Failure(InputPdfNotFound(input))
    else if host.makeDirs(outputDir).Some? then Failure(OutputDirFailed(outputDir))
    else
      match host.pdfPageCount(input)
      case None => Failure(PdfFailed(input))
      case Some(n) =>
        var kept := Filter(pages.GetOr(AllPages(n)), PageExists(n));
        FilterSatisfies(pages.GetOr(AllPages(n)), PageExists(n));
        if kept == [] then Failure(NoValidPages)
        else Success(seq(|kept|, i requires 0 <= i < |kept| => SplitOutputPath(outputDir, kept[i] as nat)))
  }

  /** With no pages named, a readable document of `n` pages is split into
      all of them, `n` files when it has any, and raises when it has none. */
  lemma SplitAllPages(host: Host, input: Path, outputDir: Path)
    requires input in host.existing && host.makeDirs(outputDir).None? && host.pdfPageCount(input).Some?
    ensures var n := host.pdfPageCount(input).value;
      && (n == 0 ==> SplitPdf(host, input, outputDir, None) == Failure(NoValidPages))
      && (n > 0 ==> SplitPdf(host, input, outputDir, None).Success?
                    && |SplitPdf(host, input, outputDir, None).value| == n)
  {
    var n := host.pdfPageCount(input).value;
    FilterKeepsAll(AllPages(n), PageExists(n));
  }

  // -----------------------------------------------------------------------
  // merge_pdfs

  /** The paths `merge_pdfs` appends: those that exist. */
  function Exists(host: Host): Path -> bool {
    p => p in host.existing
  }

  /** The inputs the PDF merger cannot read. */
  function Unreadable(host: Host): Path -> bool {
    p => host.pdfPageCount(p).None?
  }

  /** `merge_pdfs`: an empty list raises; missing paths are skipped; the
      remaining inputs are appended in order, and the first one the merger
      cannot read raises. When every path is missing the merge still
      succeeds, with nothing appended. */
  function MergePdfs(host: Host, pdfs: seq<Path>): (r: Result<seq<Path>, PdfError>)
    ensures pdfs == [] <==> r == Failure(NoPdfPaths)
    ensures r.Success? ==> r.value == Filter(pdfs, Exists(host))
    ensures r.Success? <==> pdfs != [] && forall i :: 0 <= i < |pdfs| && pdfs[i] in host.existing ==> host.pdfPageCount(pdfs[i]).Some?
    ensures pdfs != [] && r.Failure? ==> r.error.PdfFailed?
    ensures r.Failure? && r.error.PdfFailed? ==>
      && r.error.path in host.existing && r.error.path in pdfs
      && Some(r.error.path) == FirstWhere(Filter(pdfs, Exists(host)), Unreadable(host))
  {
    if pdfs == [] then Failure(NoPdfPaths)
    else
      var present := Filter(pdfs, Exists(host));
      FilterMembers(pdfs, Exists(host));
      match FirstWhere(present, Unreadable(host))
      case Some(p) =>
        var i :| 0 <= i < |present| && present[i] == p && host.pdfPageCount(present[i]).None?;
        assert present[i] in present;
        assert p in host.existing && p in pdfs;
        Failure(PdfFailed(p))
      case None => Success(present)
  }
}

=== FILE: resizer.dfy ===
/** `ImageResizer`: resizing, thumbnails and format conversion. Everything
    the class decides before calling the imaging library is modelled: the
    stored quality, the flatten-to-white decision, the target size, the
    output format and the save options. */
module ImageResizer {
  import opened Wrappers
  import opened Text
  import opened Paths
  import opened Imaging
  import opened AspectFit

  const DefaultQuality: int := 85
  const ThumbnailQuality: int := 80
  const ThumbnailBox: Size := Size(150, 150)

  /** An `ImageResizer` instance: its only state is the default quality. */
  datatype Resizer = Resizer(quality: int)

  /** The constructor stores the requested quality clamped into [1, 100]. */
  function NewResizer(quality: int): (r: Resizer)
    ensures 1 <= r.quality <= 100
    ensures 1 <= quality <= 100 ==> r.quality == quality
    ensures quality < 1 ==> r.quality == 1
    ensures quality > 100 ==> r.quality == 100
  {
    Resizer(ClampQuality(quality))
  }

  /** `suffix[1:]`: a path suffix without its leading dot. */
  function DropDot(suffix: string): string {
    if |suffix| == 0 then "" else suffix[1..]
  }

  /** The resizer's only format alias. */
  function AliasJpg(name: string): string {
    if name == "JPG" then "JPEG" else name
  }

  /** The save options `resize` and `convert_format` build: quality and
      optimize for JPEG and WEBP only, the quality being the explicit
      argument when it is present and non-zero (Python's `quality or
      self.quality`), unclamped, else the stored quality. */
  function ResizerSaveOptions(formatName: string, quality: Option<int>, stored: int): (r: SaveOptions)
    ensures r.format == formatName
    ensures r.quality.Some? <==> IsLossyName(formatName)
    ensures r.optimize == (if IsLossyName(formatName) then Some(true) else None)
    ensures r.quality.Some? && quality.Some? && quality.value != 0 ==> r.quality.value == quality.value
    ensures r.quality.Some? && (quality.None? || quality.value == 0) ==> r.quality.value == stored
  {
    if IsLossyName(formatName) then
      SaveOptions(formatName, Some(if quality.Some? && quality.value != 0 then quality.value else stored), Some(true))
    else
      SaveOptions(formatName, None, None)
  }

  /** The flattening `resize` and `convert_format` apply: only RGBA uses
      its last band as the paste mask. */
  function ResizerFlattening(mode: Mode, flatten: bool): (r: Flattening)
    ensures r.OntoWhite? <==> flatten
    ensures r.OntoWhite? ==> (r.alphaMask <==> mode == RGBA)
  {
    if flatten then OntoWhite(mode == RGBA) else KeepMode
  }

  /** The decisions of `resize` for a decoded image: None stands for the
      division by zero of the aspect computation. */
  function ResizePlan(
    self: Resizer, img: Image, source: Path, output: Path, size: Size,
    keepAspect: bool, format: Option<string>, quality: Option<int>): (r: Option<EncodePlan>)
    ensures r.None? <==> keepAspect && FitWithin(img.size, size).None?
    ensures r.Some? ==> r.value.destination == ToFile(output)
    ensures r.Some? && !keepAspect ==> r.value.image.size == size
    ensures r.Some? && keepAspect ==> Some(r.value.image.size) == FitWithin(img.size, size)
    ensures r.Some? ==>
      (r.value.flattening.OntoWhite? <==>
        NeedsFlatteningForJpeg(img.mode)
        && (format == Some("JPEG") || (format.None? && Lower(PathSuffix(source)) == ".jpg")))
    ensures r.Some? && r.value.flattening.OntoWhite? ==> (r.value.flattening.alphaMask <==> img.mode == RGBA)
    ensures r.Some? ==> r.value.image.mode == (if r.value.flattening.OntoWhite? then RGB else img.mode)
    ensures r.Some? && format.Some? && format.value != "" ==>
      r.value.options.format == AliasJpg(format.value)
    ensures r.Some? && (format.None? || format.value == "") ==>
      r.value.options.format == AliasJpg(Upper(DropDot(PathSuffix(source))))
    ensures r.Some? ==> r.value.options == ResizerSaveOptions(r.value.options.format, quality, self.quality)
  {
    var flatten := NeedsFlatteningForJpeg(img.mode)
      && (format == Some("JPEG") || (format.None? && Lower(PathSuffix(source)) == ".jpg"));
    var fitted := if keepAspect then FitWithin(img.size, size) else Some(size);
    if fitted.None? then None
    else
      var flattening := ResizerFlattening(img.mode, flatten);
      var outputFormat := AliasJpg(if format.Some? && format.value != "" then format.value
                                   else Upper(DropDot(PathSuffix(source))));
      Some(EncodePlan(
        ToFile(output),
        Image(fitted.value, Flatten(img, flattening).mode),
        flattening,
        ResizerSaveOptions(outputFormat, quality, self.quality)))
  }

  /** `resize`: every failure, from creating the output's parent directory
      and opening the source to saving the result, is caught and reported as
      False (None here). */
  function Resize(
    self: Resizer, host: Host, source: Path, output: Path, size: Size,
    keepAspect: bool, format: Option<string>, quality: Option<int>): (r: Option<EncodePlan>)
    ensures host.makeDirs(PathParent(output)).Some? ==> r.None?
    ensures r.Some? <==>
      && host.makeDirs(PathParent(output)).None?
      && host.decode(source).Some?
      && ResizePlan(self, host.decode(source).value, source, output, size, keepAspect, format, quality).Some?
      && host.encode(ResizePlan(self, host.decode(source).value, source, output, size, keepAspect, format, quality).value).None?
    ensures r.Some? ==>
      r == ResizePlan(self, host.decode(source).value, source, output, size, keepAspect, format, quality)
  {
    if host.makeDirs(PathParent(output)).Some? then None
    else
      match host.decode(source)
      case None => None
      case Some(img) =>
        var plan := ResizePlan(self, img, source, output, size, keepAspect, format, quality);
        if plan.None? || host.encode(plan.value).Some? then None else plan
  }

  /** `create_thumbnail`: `resize` with the aspect ratio kept and the fixed
      thumbnail quality, whatever the stored quality. */
  function CreateThumbnail(
    self: Resizer, host: Host, source: Path, output: Path, size: Size,
    format: Option<string>): (r: Option<EncodePlan>)
    ensures host.decode(source).None? ==> r.None?
    ensures r.Some? ==> r.value.destination == ToFile(output) && host.encode(r.value).None?
    ensures r.Some? && r.value.options.quality.Some? ==> r.value.options.quality.value == ThumbnailQuality
    ensures r.Some? ==> Some(r.value.image.size) == FitWithin(host.decode(source).value.size, size)
  {
    Resize(self, host, source, output, size, true, format, Some(ThumbnailQuality))
  }

  /** A thumbnail of a positive-size image into a positive box fits the box
      and is no larger than the image. */
  lemma CreateThumbnailFits(
    self: Resizer, host: Host, source: Path, output: Path, size: Size, format: Option<string>)
    requires size.width > 0 && size.height > 0
    ensures var r := CreateThumbnail(self, host, source, output, size, format);
      r.Some? && host.decode(source).value.size.width > 0 && host.decode(source).value.size.height > 0 ==>
        && r.value.image.size.width <= size.width && r.value.image.size.height <= size.height
        && r.value.image.size.width <= host.decode(source).value.size.width
        && r.value.image.size.height <= host.decode(source).value.size.height
  {
    var r := CreateThumbnail(self, host, source, output, size, format);
    if r.Some? && host.decode(source).value.size.width > 0 && host.decode(source).value.size.height > 0 {
      FitWithinShrinksIntoBox(host.decode(source).value.size, size);
    }
  }

  /** What `convert_format` hands the encoder for a decoded image: the
      token is upper-cased and `JPG` read as `JPEG`; flattening happens for
      JPEG targets of RGBA, LA and P images; the size is unchanged. */
  function ConvertFormatPlan(self: Resizer, img: Image, output: Path, format: string, quality: Option<int>): (r: EncodePlan)
    ensures r.destination == ToFile(output)
    ensures r.options.format == AliasJpg(Upper(format))
    ensures r.image.size == img.size
    ensures r.flattening.OntoWhite? <==> AliasJpg(Upper(format)) == "JPEG" && NeedsFlatteningForJpeg(img.mode)
    ensures r.flattening.OntoWhite? ==> (r.flattening.alphaMask <==> img.mode == RGBA)
    ensures r.options == ResizerSaveOptions(r.options.format, quality, self.quality)
  {
    var name := AliasJpg(Upper(format));
    var flattening := ResizerFlattening(img.mode, name == "JPEG" && NeedsFlatteningForJpeg(img.mode));
    EncodePlan(ToFile(output), Flatten(img, flattening), flattening, ResizerSaveOptions(name, quality, self.quality))
  }

  /** `convert_format`: the output's parent directory is created first, then
      the source is opened and the converted image saved; every failure is
      reported as False (None). */
  function ConvertFormat(
    self: Resizer, host: Host, source: Path, output: Path, format: string,
    quality: Option<int>): (r: Option<EncodePlan>)
    ensures host.makeDirs(PathParent(output)).Some? ==> r.None?
    ensures host.decode(source).None? ==> r.None?
    ensures r.Some? <==>
      && host.makeDirs(PathParent(output)).None?
      && host.decode(source).Some?
      && host.encode(ConvertFormatPlan(self, host.decode(source).value, output, format, quality)).None?
    ensures r.Some? ==> r.value == ConvertFormatPlan(self, host.decode(source).value, output, format, quality)
    ensures r.Some? ==> r.value.destination == ToFile(output)
    ensures r.Some? ==> r.value.options.format == AliasJpg(Upper(format))
    ensures r.Some? ==> r.value.image.size == host.decode(source).value.size
    ensures r.Some? ==>
      (r.value.flattening.OntoWhite? <==>
        AliasJpg(Upper(format)) == "JPEG" && NeedsFlatteningForJpeg(host.decode(source).value.mode))
    ensures r.Some? && r.value.flattening.OntoWhite? ==>
      (r.value.flattening.alphaMask <==> host.decode(source).value.mode == RGBA)
    ensures r.Some? ==> r.value.options == ResizerSaveOptions(r.value.options.format, quality, self.quality)
  {
    if host.makeDirs(PathParent(output)).Some? then None
    else
      match host.decode(source)
      case None => None
      case Some(img) =>
        var plan := ConvertFormatPlan(self, img, output, format, quality);
        if host.encode(plan).Some? then None else Some(plan)
  }

  /** The flatten test compares the raw format token with `JPEG`, while the
      output format reads `JPG` as JPEG: an explicit `JPG` target sends an
      alpha image to the JPEG encoder unflattened. */
  lemma ExplicitJpgNotFlattened(
    self: Resizer, img: Image, source: Path, output: Path, size: Size, quality: Option<int>)
    requires img.mode == RGBA
    ensures var plan := ResizePlan(self, img, source, output, size, false, Some("JPG"), quality);
      && plan.Some?
      && plan.value.options.format == "JPEG"
      && plan.value.flattening == KeepMode
      && plan.value.image.mode == RGBA
  {
    assert "JPG" != "JPEG";
  }

  /** Likewise, with no explicit format the flatten test looks for the
      suffix `.jpg` only: a `.jpeg` source is written back as JPEG without
      being flattened. */
  lemma JpegSuffixNotFlattened(
    self: Resizer, img: Image, source: Path, output: Path, size: Size, quality: Option<int>)
    requires img.mode == RGBA
    requires PathSuffix(source) == ".jpeg"
    ensures var plan := ResizePlan(self, img, source, output, size, false, None, quality);
      && plan.Some?
      && plan.value.options.format == "JPEG"
      && plan.value.flattening == KeepMode
  {
    JpegSuffixReadings();
  }

  /** How `resize` reads the suffix `.jpeg`: it is not `.jpg` once
      lower-cased, and names JPEG once its dot is dropped and it is
      upper-cased. */
  lemma JpegSuffixReadings()
    ensures Lower(".jpeg") != ".jpg"
    ensures Upper(DropDot(".jpeg")) == "JPEG"
  {
    assert |Lower(".jpeg")| == 5;
    assert DropDot(".jpeg") == "jpeg";
    assert Upper("jpeg") == "JPEG";
  }

  /** `is_supported_format`: the upper-cased suffix, without its dot, names
      one of the six formats. */
  function IsSupportedFormat(p: Path): (r: bool)
    ensures r ==> 4 <= |PathSuffix(p)| <= 5
  {
    var named := FormatNamed(Upper(DropDot(PathSuffix(p))));
    if named.Some? then
      assert |named.value.Name()| == |Upper(DropDot(PathSuffix(p)))|;
      true
    else
      false
  }

  /** For a plain file name `stem.ext` (one dot, no slash) the test reads
      `ext` upper-cased as a format name. */
  lemma IsSupportedFormatOfName(name: string, stem: string, ext: string)
    requires stem != "" && '.' !in stem && '/' !in stem
    requires ext != "" && '.' !in ext && '/' !in ext
    requires name == stem + ("." + ext)
    ensures IsSupportedFormat(name) <==> FormatNamed(Upper(ext)).Some?
  {
    assert stem + ("." + ext) == stem + "." + ext;
    PathSuffixOfPlainName(name, stem, ext);
  }

  /** The suffix test knows no aliases: a `.jpg` file is reported
      unsupported, although JPEG is a supported format. */
  lemma JpgSuffixUnsupported(stem: string)
    requires stem != "" && '.' !in stem && '/' !in stem
    ensures !IsSupportedFormat(stem + ".jpg")
  {
    assert "." + "jpg" == ".jpg";
    assert Upper("jpg") == "JPG";
    IsSupportedFormatOfName(stem + ".jpg", stem, "jpg");
  }

  // -----------------------------------------------------------------------
  // The module-level convenience functions

  /** `resize_image`: a resizer built from `quality`, keeping the aspect
      ratio and the source's format; its lossy quality is therefore the
      clamped one. */
  function ResizeImage(host: Host, source: Path, output: Path, size: Size, quality: int): (r: Option<EncodePlan>)
    ensures host.decode(source).None? ==> r.None?
    ensures r.Some? ==> Some(r.value.image.size) == FitWithin(host.decode(source).value.size, size)
    ensures r.Some? ==> r.value.options.format == AliasJpg(Upper(DropDot(PathSuffix(source))))
    ensures r.Some? && r.value.options.quality.Some? ==> r.value.options.quality.value == ClampQuality(quality)
  {
    Resize(NewResizer(quality), host, source, output, size, true, None, None)
  }

  /** `create_thumbnail` at module level: a default resizer's thumbnail. */
  function CreateThumbnailWithDefaults(host: Host, source: Path, output: Path, size: Size): (r: Option<EncodePlan>)
    ensures host.decode(source).None? ==> r.None?
    ensures r.Some? ==> Some(r.value.image.size) == FitWithin(host.decode(source).value.size, size)
    ensures r.Some? ==> r.value.options.format == AliasJpg(Upper(DropDot(PathSuffix(source))))
    ensures r.Some? && r.value.options.quality.Some? ==> r.value.options.quality.value == ThumbnailQuality
  {
    CreateThumbnail(NewResizer(DefaultQuality), host, source, output, size, None)
  }

  /** `convert_image_format`: the same `quality` goes both to the
      constructor, which clamps it, and to `convert_format`, which does not;
      so a non-zero quality reaches the encoder unclamped, and only zero
      falls back to the clamped value 1. */
  function ConvertImageFormat(host: Host, source: Path, output: Path, format: string, quality: int): (r: Option<EncodePlan>)
    ensures host.makeDirs(PathParent(output)).Some? ==> r.None?
    ensures host.decode(source).None? ==> r.None?
    ensures r.Some? ==> r.value.options.format == AliasJpg(Upper(format))
    ensures r.Some? && r.value.options.quality.Some? ==>
      r.value.options.quality.value == (if quality != 0 then quality else 1)
  {
    ConvertFormat(NewResizer(quality), host, source, output, format, Some(quality))
  }

  /** With the default box of both `create_thumbnail` functions, the
      thumbnail of a positive-size image is at most 150 by 150. */
  lemma DefaultThumbnailFits(host: Host, source: Path, output: Path)
    ensures var r := CreateThumbnailWithDefaults(host, source, output, ThumbnailBox);
      r.Some? && host.decode(source).value.size.width > 0 && host.decode(source).value.size.height > 0 ==>
        r.value.image.size.width <= 150 && r.value.image.size.height <= 150
  {
    CreateThumbnailFits(NewResizer(DefaultQuality), host, source, output, ThumbnailBox, None);
  }
}

=== FILE: seqs.dfy ===
/** Order-preserving filtering, the shape of every "skip what does not
    qualify" loop in the services. */
module Seqs {
  import opened Wrappers

  /** The elements of `s` that satisfy `keep`, in their original order and
      with their original multiplicity. */
  function Filter<T>(s: seq<T>, keep: T -> bool): (r: seq<T>)
    ensures |r| <= |s|
  {
    if s == [] then []
    else (if keep(s[0]) then [s[0]] else []) + Filter(s[1..], keep)
  }

  /** What the filter keeps: every kept element of `s`, and only elements
      of `s` that qualify. */
  lemma {:induction false} FilterMembers<T>(s: seq<T>, keep: T -> bool)
    ensures forall i :: 0 <= i < |s| && keep(s[i]) ==> s[i] in Filter(s, keep)
    ensures forall x :: x in Filter(s, keep) ==> x in s && keep(x)
    decreases |s|
  {
    if s != [] {
      FilterMembers(s[1..], keep);
      assert forall i :: 1 <= i < |s| ==> s[i] == s[1..][i - 1];
    }
  }

  /** Everything the filter keeps qualifies. */
  lemma FilterSatisfies<T>(s: seq<T>, keep: T -> bool)
    ensures forall i :: 0 <= i < |Filter(s, keep)| ==> keep(Filter(s, keep)[i])
  {
    FilterMembers(s, keep);
    var r := Filter(s, keep);
    assert forall i :: 0 <= i < |r| ==> r[i] in r;
  }

  /** Filtering distributes over concatenation; together with the singleton
      case this pins down order and duplicates. */
  lemma {:induction false} FilterAppend<T>(a: seq<T>, b: seq<T>, keep: T -> bool)
    ensures Filter(a + b, keep) == Filter(a, keep) + Filter(b, keep)
    decreases |a|
  {
    if a == [] {
      assert a + b == b;
    } else {
      assert (a + b)[0] == a[0];
      assert (a + b)[1..] == a[1..] + b;
      FilterAppend(a[1..], b, keep);
      var head := if keep(a[0]) then [a[0]] else [];
      calc {
        Filter(a + b, keep);
        head + Filter(a[1..] + b, keep);
        head + (Filter(a[1..], keep) + Filter(b, keep));
        (head + Filter(a[1..], keep)) + Filter(b, keep);
      }
    }
  }

  /** Each element lands on exactly one side of a predicate and its
      complement. */
  lemma {:induction false} FilterPartition<T>(s: seq<T>, keep: T -> bool, drop: T -> bool)
    requires forall x :: drop(x) <==> !keep(x)
    ensures |Filter(s, keep)| + |Filter(s, drop)| == |s|
    decreases |s|
  {
    if s != [] {
      FilterPartition(s[1..], keep, drop);
    }
  }

  /** Appending one element adds one to the count exactly when it is kept. */
  lemma {:induction false} FilterSnoc<T>(s: seq<T>, x: T, keep: T -> bool)
    ensures Filter(s + [x], keep) == Filter(s, keep) + (if keep(x) then [x] else [])
  {
    FilterAppend(s, [x], keep);
    assert [x][1..] == [];
  }

  /** The first element of `s` that is `bad`, if any: where a loop that
      raises on the first bad element stops. */
  function FirstWhere<T>(s: seq<T>, bad: T -> bool): (r: Option<T>)
    ensures r.None? <==> forall i :: 0 <= i < |s| ==> !bad(s[i])
    ensures r.Some? ==> exists i :: (&& 0 <= i < |s| && s[i] == r.value && bad(s[i])
                                     && forall k :: 0 <= k < i ==> !bad(s[k]))
    decreases |s|
  {
    if s == [] then None
    else if bad(s[0]) then Some(s[0])
    else
      var r := FirstWhere(s[1..], bad);
      assert forall i :: 1 <= i < |s| ==> s[i] == s[1..][i - 1];
      r
  }

  /** One step of a loop that counts, among the elements of `s` selected by
      `sel`, those satisfying `ok`: element `i` adds one exactly when it is
      selected and satisfies `ok`. */
  lemma CountStep<T>(s: seq<T>, i: int, sel: T -> bool, ok: T -> bool)
    requires 0 <= i < |s|
    ensures |Filter(Filter(s[..i + 1], sel), ok)|
         == |Filter(Filter(s[..i], sel), ok)| + (if sel(s[i]) && ok(s[i]) then 1 else 0)
  {
    assert s[..i + 1] == s[..i] + [s[i]];
    FilterSnoc(s[..i], s[i], sel);
    var done := Filter(s[..i], sel);
    if sel(s[i]) {
      FilterSnoc(done, s[i], ok);
    } else {
      assert done + [] == done;
    }
  }

  /** The complement of a predicate. */
  function Not<T>(p: T -> bool): T -> bool {
    x => !p(x)
  }

  /** One pass over `s` that counts, among the elements `sel` selects, those
      that satisfy `ok` and those that do not. */
  method CountSelected<T>(s: seq<T>, sel: T -> bool, ok: T -> bool) returns (yes: nat, no: nat)
    ensures yes == |Filter(Filter(s, sel), ok)|
    ensures no == |Filter(Filter(s, sel), Not(ok))|
    ensures yes + no == |Filter(s, sel)|
  {
    yes, no := 0, 0;
    var i := 0;
    while i < |s|
      invariant 0 <= i <= |s|
      invariant yes == |Filter(Filter(s[..i], sel), ok)|
      invariant no == |Filter(Filter(s[..i], sel), Not(ok))|
    {
      CountStep(s, i, sel, ok);
      CountStep(s, i, sel, Not(ok));
      if sel(s[i]) {
        if ok(s[i]) {
          yes := yes + 1;
        } else {
          no := no + 1;
        }
      }
      i := i + 1;
    }
    assert s[..i] == s;
    FilterPartition(Filter(s, sel), ok, Not(ok));
  }

  /** Filtering keeps everything exactly when everything qualifies. */
  lemma {:induction false} FilterKeepsAll<T>(s: seq<T>, keep: T -> bool)
    requires forall i :: 0 <= i < |s| ==> keep(s[i])
    ensures Filter(s, keep) == s
    decreases |s|
  {
    if s != [] {
      FilterKeepsAll(s[1..], keep);
    }
  }
}

=== FILE: text.dfy ===
/** The Python string behaviour the services rely on: ASCII case mapping
    (`str.upper`, `str.lower`), `str.rfind` of one character, `str.split`
    on one separator character, and the `04d` format specification. */
module Text {

  function UpperChar(c: char): char {
    if 'a' <= c <= 'z' then (c as int - 32) as char else c
  }

  function LowerChar(c: char): char {
    if 'A' <= c <= 'Z' then (c as int + 32) as char else c
  }

  /** `s.upper()` over ASCII letters. */
  function Upper(s: string): (r: string)
    ensures |r| == |s|
    ensures forall i :: 0 <= i < |s| ==> r[i] == UpperChar(s[i])
  {
    seq(|s|, i requires 0 <= i < |s| => UpperChar(s[i]))
  }

  /** `s.lower()` over ASCII letters. */
  function Lower(s: string): (r: string)
    ensures |r| == |s|
    ensures forall i :: 0 <= i < |s| ==> r[i] == LowerChar(s[i])
  {
    seq(|s|, i requires 0 <= i < |s| => LowerChar(s[i]))
  }

  /** Upper-casing twice changes nothing more than upper-casing once. */
  lemma UpperIdempotent(s: string)
    ensures Upper(Upper(s)) == Upper(s)
  {
    assert forall i :: 0 <= i < |s| ==> Upper(Upper(s))[i] == Upper(s)[i];
  }

  /** `s.rfind(c)`: the last position holding `c`, or -1. */
  function LastIndexOf(s: string, c: char): (r: int)
    ensures -1 <= r < |s|
    ensures r >= 0 ==> s[r] == c
  {
    if |s| == 0 then -1
    else if s[|s| - 1] == c then |s| - 1
    else LastIndexOf(s[..|s| - 1], c)
  }

  /** No `c` follows the position `LastIndexOf` finds: it is the last one,
      and -1 means there is none. */
  lemma {:induction false} LastIndexOfIsLast(s: string, c: char)
    ensures c !in s[LastIndexOf(s, c) + 1..]
    decreases |s|
  {
    if |s| > 0 && s[|s| - 1] != c {
      var init := s[..|s| - 1];
      LastIndexOfIsLast(init, c);
      var r := LastIndexOf(s, c);
      assert s[r + 1..] == init[r + 1..] + [s[|s| - 1]];
    }
  }

  // ---------------------------------------------------------------------
  // Splitting on one separator and joining back

  /** `s.split(sep)` for a one-character separator: the maximal runs between
      separators, including empty ones at either end. */
  function Split(s: string, sep: char): (parts: seq<string>)
    ensures |parts| >= 1
    ensures forall i :: 0 <= i < |parts| ==> sep !in parts[i]
    decreases |s|
  {
    if |s| == 0 then [""]
    else
      var rest := Split(s[1..], sep);
      if s[0] == sep then [""] + rest
      else [[s[0]] + rest[0]] + rest[1..]
  }

  /** `sep.join(parts)`. */
  function Join(parts: seq<string>, sep: char): string
    requires |parts| >= 1
    decreases |parts|
  {
    if |parts| == 1 then parts[0] else parts[0] + [sep] + Join(parts[1..], sep)
  }

  /** Joining the pieces of a split gives back the original string. */
  lemma {:induction false} JoinSplit(s: string, sep: char)
    ensures Join(Split(s, sep), sep) == s
    decreases |s|
  {
    if |s| > 0 {
      var rest := Split(s[1..], sep);
      JoinSplit(s[1..], sep);
      if s[0] == sep {
        assert ([""] + rest)[1..] == rest;
      } else {
        var parts := [[s[0]] + rest[0]] + rest[1..];
        if |rest| > 1 {
          assert parts[1..] == rest[1..];
          assert Join(rest, sep) == rest[0] + [sep] + Join(rest[1..], sep);
        }
        assert s == [s[0]] + s[1..];
      }
    }
  }

  /** A separator-free string splits into itself alone. */
  lemma {:induction false} SplitWithoutSeparator(w: string, sep: char)
    requires sep !in w
    ensures Split(w, sep) == [w]
    decreases |w|
  {
    if |w| > 0 {
      SplitWithoutSeparator(w[1..], sep);
      assert w == [w[0]] + w[1..];
    }
  }

  /** A separator-free prefix followed by a separator becomes one piece. */
  lemma {:induction false} SplitAfterPiece(w: string, sep: char, t: string)
    requires sep !in w
    ensures Split(w + [sep] + t, sep) == [w] + Split(t, sep)
    decreases |w|
  {
    if |w| == 0 {
      assert w + [sep] + t == [sep] + t;
      assert ([sep] + t)[1..] == t;
    } else {
      var s := w + [sep] + t;
      assert s[1..] == w[1..] + [sep] + t;
      SplitAfterPiece(w[1..], sep, t);
      assert w == [w[0]] + w[1..];
    }
  }

  /** Splitting a join of separator-free pieces gives back the pieces. */
  lemma {:induction false} SplitJoin(parts: seq<string>, sep: char)
    requires |parts| >= 1
    requires forall i :: 0 <= i < |parts| ==> sep !in parts[i]
    ensures Split(Join(parts, sep), sep) == parts
    decreases |parts|
  {
    if |parts| == 1 {
      SplitWithoutSeparator(parts[0], sep);
    } else {
      SplitJoin(parts[1..], sep);
      SplitAfterPiece(parts[0], sep, Join(parts[1..], sep));
      assert parts == [parts[0]] + parts[1..];
    }
  }

  // ---------------------------------------------------------------------
  // Decimal rendering

  function DigitChar(d: int): char
    requires 0 <= d < 10
  {
    ('0' as int + d) as char
  }

  predicate IsDigits(s: string) {
    forall i :: 0 <= i < |s| ==> '0' <= s[i] <= '9'
  }

  /** The value of a string of decimal digits, most significant first. */
  function DecimalValue(s: string): nat
    requires IsDigits(s)
    decreases |s|
  {
    if s == [] then 0
    else 10 * DecimalValue(s[..|s| - 1]) + (s[|s| - 1] as int - '0' as int)
  }

  /** The shortest decimal rendering of `n` (`str(n)`). */
  function Digits(n: nat): (r: string)
    ensures 1 <= |r|
    ensures IsDigits(r)
    ensures r[0] == '0' <==> n == 0
    decreases n
  {
    if n < 10 then [DigitChar(n)] else Digits(n / 10) + [DigitChar(n % 10)]
  }

  lemma {:induction false} DigitsRoundTrip(n: nat)
    ensures DecimalValue(Digits(n)) == n
    decreases n
  {
    if n >= 10 {
      DigitsRoundTrip(n / 10);
      var d := Digits(n);
      assert d[..|d| - 1] == Digits(n / 10);
    }
  }

  function Pow10(k: nat): (r: nat)
    ensures r >= 1
  {
    if k == 0 then 1 else 10 * Pow10(k - 1)
  }

  /** A number below `10^k` has at most `k` digits. */
  lemma {:induction false} DigitsBelow(n: nat, k: nat)
    requires 1 <= k
    requires n < Pow10(k)
    ensures |Digits(n)| <= k
    decreases k
  {
    assert Pow10(1) == 10;
    if n >= 10 {
      assert n / 10 < Pow10(k - 1);
      DigitsBelow(n / 10, k - 1);
    }
  }

  lemma FourDigitsBelow10000(n: nat)
    ensures n < 10000 ==> |Digits(n)| <= 4
  {
    if n < 10000 {
      assert Pow10(4) == 10000;
      DigitsBelow(n, 4);
    }
  }

  function Zeros(k: nat): (r: string)
    ensures |r| == k
    ensures forall i :: 0 <= i < k ==> r[i] == '0'
  {
    seq(k, _ => '0')
  }

  lemma {:induction false} ZerosValue(k: nat)
    ensures DecimalValue(Zeros(k)) == 0
    decreases k
  {
    if k > 0 {
      assert Zeros(k)[..k - 1] == Zeros(k - 1);
      ZerosValue(k - 1);
    }
  }

  /** Leading zeros do not change a decimal value. */
  lemma {:induction false} LeadingZerosIgnored(k: nat, s: string)
    requires IsDigits(s)
    ensures IsDigits(Zeros(k) + s)
    ensures DecimalValue(Zeros(k) + s) == DecimalValue(s)
    decreases |s|
  {
    if s == [] {
      assert Zeros(k) + s == Zeros(k);
      ZerosValue(k);
    } else {
      var t := Zeros(k) + s;
      assert t[..|t| - 1] == Zeros(k) + s[..|s| - 1];
      LeadingZerosIgnored(k, s[..|s| - 1]);
    }
  }

  /** `f"{n:04d}"` for non-negative `n`: the decimal digits of `n`,
      left-padded with zeros to a width of four. The rendering reads back as
      `n`, so distinct numbers never share a rendering, and only the padding
      up to width four adds leading zeros. */
  function ZeroPad4(n: nat): (r: string)
    ensures IsDigits(r)
    ensures DecimalValue(r) == n
    ensures |r| >= 4
    ensures n < 10000 ==> |r| == 4
    ensures |r| > 4 ==> r[0] != '0'
  {
    var d := Digits(n);
    DigitsRoundTrip(n);
    FourDigitsBelow10000(n);
    if |d| >= 4 then
      d
    else
      LeadingZerosIgnored(4 - |d|, d);
      Zeros(4 - |d|) + d
  }
}

=== FILE: wrappers.dfy ===
/** Failure-carrying values shared by the services: `Option` for the entry points
    that answer `None` or `False` on failure, `Result` for those that raise. */
module Wrappers {

  datatype Option<+T> = None | Some(value: T) {

    /** The wrapped value, or `default` when there is none. */
    function GetOr(default: T): T {
      match this
      case Some(v) => v
      case None => default
    }
  }

  /** Either a success value or the error that the source raises instead. */
  datatype Result<+T, +E> = Success(value: T) | Failure(error: E)
}
